=== FILE: README.md ===
# govinfo-ai knowledgebase, follow-up parser and account rules in Dafny

This project models three parts of the govinfo-ai browser application as pure functions over
immutable values and proves properties of them.

1. **The learned-answer cache** (`KnowledgebaseService`). This part covers:
   - the tokenizer;
   - Jaccard token similarity;
   - the weighted context score;
   - best-match selection, with usage and hit/miss bookkeeping;
   - the learning gate;
   - count-based eviction;
   - `clear`, `removeEntry` and `importFromJSON` over already-parsed records.

   The store is a value `Store(entries, stats)`. Every operation returns the new store together with its result.
2. **The follow-up parser** of the AI service: `parseFollowUpActions` and `getLanguageName`.
3. **The account rules** of `AuthService`: `signup`, `login`, `changePassword`, `deleteAccount`,
   `createAdminUser`, `deleteUser`, `isValidEmail` and `simpleHash`. The two browser-storage tables
   become a user list and a map from user id to password hash, passed in and returned as `Accounts`.

Modules, one per file:

| file | module | contents |
|---|---|---|
| `options.dfy` | `Options` | `Option` |
| `text.dfy` | `Text` | the JavaScript string built-ins used: `toLowerCase` and `trim` for the modelled character set, `split` on a character, `indexOf`/`includes` |
| `kb_model.dfy` | `KbModel` | `KB_CONFIG` constants, `UserContext`, `KnowledgebaseEntry` |
| `tokenizer.dfy` | `Tokenizer` | `tokenize` |
| `similarity.dfy` | `Similarity` | `calculateSimilarity`, `contextMatch`, the combined confidence |
| `retention.dfy` | `Retention` | the stable usage sort and `cleanupEntries` |
| `knowledgebase.dfy` | `Knowledgebase` | the store and its operations |
| `followup.dfy` | `FollowUp` | `parseFollowUpActions`, `getLanguageName` |
| `auth.dfy` | `Auth` | the account rules and `simpleHash` |

The clock, the id generators and the serialized size are parameters:
- `now` stands for `Date.now()`;
- `freshId` stands for `generateId()` and `generateUserId()`;
- `createdAt` stands for `new Date().toISOString()`;
- `sizeKB: seq<Entry> -> real` stands for the `Blob` size of the JSON text in kilobytes.

Scores are exact reals.

The model follows what the code does where that departs from the code's own comments or from what its names suggest:
- `contextMatch` divides the matched weight by the *number* of comparable dimensions, not by the sum of their weights (`knowledgebase.service.ts:106`).
  - Identical, fully populated contexts therefore score 1/3, not 1.
  - No context score exceeds 0.4.
- `cleanupEntries` keeps the first 500 entries of an ascending (usageCount, lastUsed) sort. It therefore keeps the least-used and oldest entries and evicts the most-used and most recent ones, contrary to the comments at lines 211 and 238.
- The size check in `saveToStorage` runs `cleanupEntries` once. With 500 entries or fewer, that only re-orders them, so no 500 KB bound is enforced.
- A question without tokens is not rejected by `learn`, and an entry without tokens can never be matched.
- An untokenizable query against a non-empty store returns before counting a miss.
- `clear` keeps the hit and miss counters.

## Model

| member | source | states |
|---|---|---|
| Text.LowerChar | src/services/knowledgebase.service.ts:45-46 | an upper-case letter A–Z maps to the same letter in a–z and every other character is unchanged; so a word character maps to a lower-case word character, and whitespace stays whitespace |
| Text.Trim | src/services/knowledgebase.service.ts:168-169 | `trim` yields a trimmed slice of its input, and everything it cut off on either side is whitespace |
| Text.TrimOfTrimmed | src/services/knowledgebase.service.ts:168-169 | trimming is idempotent |
| Text.TrimUnique | src/services/ai.services.ts:339-340 | a trimmed string between two whitespace runs is exactly what `trim` returns |
| Text.TrimIgnoresSpace | src/services/ai.services.ts:339-340 | whitespace added on either side does not change what `trim` returns |
| Text.Split | src/services/ai.services.ts:341-342 | `split` always yields at least one field |
| Text.SplitFieldsExcludeSeparator | src/services/ai.services.ts:341-342 | no field produced by `split` contains the separator |
| Text.JoinSplit | src/services/ai.services.ts:341-342 | joining the fields of `split` with the separator gives back the original string |
| Text.SplitJoin | src/services/ai.services.ts:341-342 | splitting a join of separator-free fields gives back exactly those fields |
| Text.SplitAppend | src/services/ai.services.ts:341-342 | splitting `a + sep + b` gives the fields of `a` followed by the fields of `b` |
| Text.SplitNoSeparator | src/services/ai.services.ts:341-342 | a string without the separator splits into itself alone |
| Text.SplitPrefix | src/services/ai.services.ts:341-342 | a separator-free prefix joins the first field and leaves the others alone |
| Text.SplitSuffix | src/services/ai.services.ts:341-342 | a separator-free suffix joins the last field and leaves the others alone |
| Text.IndexOf | src/services/ai.services.ts:336 | `indexOf` returns the first occurrence of the pattern, or None exactly when there is no occurrence |
| Text.IndexOfExtend | src/services/ai.services.ts:336 | appending text never moves an existing first occurrence |
| Tokenizer.Tokenize | src/services/knowledgebase.service.ts:43-61 | every token is at least 3 characters over [a-z0-9_], and no token repeats |
| Tokenizer.Dedup | src/services/knowledgebase.service.ts:55-60 | the seen-set filter keeps exactly the distinct elements, without repeats |
| Tokenizer.DedupKeepsFirstOccurrenceOrder | src/services/knowledgebase.service.ts:55-60 | distinct tokens come out in the order of their first occurrences |
| Tokenizer.KeptFieldsAreTokens | src/services/knowledgebase.service.ts:45-53 | every field of length at least 3 in the normalized text satisfies IsToken: at least 3 characters, all in [a-z0-9_] |
| Tokenizer.TokenizeCanonical | src/services/knowledgebase.service.ts:45-53 | collapsing and trimming whitespace does not affect the tokens: they are the deduplicated long fields of the text with every non-word character replaced by a space |
| Tokenizer.SameCanonSameTokens | src/services/knowledgebase.service.ts:43-61 | texts that agree up to case and punctuation have the same tokens |
| Tokenizer.TokenizeIgnoresCase | src/services/knowledgebase.service.ts:45-46 | upper-case letters tokenize like their lower-case forms |
| Tokenizer.PunctuationSeparates | src/services/knowledgebase.service.ts:47 | a punctuation character behaves exactly like a space |
| Tokenizer.NoWordCharsNoTokens | src/services/knowledgebase.service.ts:43-61 | text with no word character, such as empty or all-punctuation text, has no tokens |
| Tokenizer.TrailingPunctuationIgnored | src/services/knowledgebase.service.ts:43-61 | trailing punctuation such as "???" does not change the tokens |
| Similarity.Jaccard | src/services/knowledgebase.service.ts:66-77 | similarity lies in [0,1] and is 0 when either side is empty; it is positive exactly when the token sets overlap, and 1 exactly for equal non-empty token sets |
| Similarity.JaccardSymmetric | src/services/knowledgebase.service.ts:66-77 | similarity is symmetric |
| Similarity.EqualOverlapMeansEqual | src/services/knowledgebase.service.ts:73-76 | intersection and union have the same size exactly when the two sets are equal |
| Similarity.ContextMatch | src/services/knowledgebase.service.ts:82-107 | the context score lies in [0, 0.4] and is 0 when no dimension is non-empty on both sides |
| Similarity.CountryMismatchAddsNothing | src/services/knowledgebase.service.ts:87-89 | a country set on both sides but different adds nothing: making it agree would raise the score by exactly 0.4 / total |
| Similarity.StateMismatchAddsNothing | src/services/knowledgebase.service.ts:93-97 | a state set on both sides, different and not "All", adds nothing: making it agree would raise the score by exactly 0.4 / total |
| Similarity.SectorMismatchAddsNothing | src/services/knowledgebase.service.ts:101-103 | a sector set on both sides but different adds nothing: making it agree would raise the score by exactly 0.2 / total |
| Similarity.IdenticalFullContextScoresOneThird | src/services/knowledgebase.service.ts:82-107 | identical fully populated contexts score exactly 1/3 |
| Similarity.EntryStateAllMatchesAnyState | src/services/knowledgebase.service.ts:94-99 | an entry state of "All" scores as if it equalled any non-empty session state |
| Similarity.SessionStateAllIsNotAWildcard | src/services/knowledgebase.service.ts:94-99 | a session state of "All" is not a wildcard: it does not match the entry state "Goa" |
| Similarity.Confidence | src/services/knowledgebase.service.ts:135-137 | the combined confidence lies in [0, 0.7 + 0.3 × 0.4] |
| Similarity.HitNeedsTokenSimilarity | src/services/knowledgebase.service.ts:135-141 | reaching the 0.7 threshold needs token similarity of at least 29/35 |
| Similarity.EmptyTokensNeverMatch | src/services/knowledgebase.service.ts:135-141 | an entry without tokens never reaches the threshold |
| Similarity.FourOfSevenTokensMiss | src/services/knowledgebase.service.ts:135-141 | a query sharing 4 of an entry's 7 tokens, with a full context match, scores 0.5 and misses |
| Retention.Insert | src/services/knowledgebase.service.ts:242-245 | inserting adds exactly one element to the multiset |
| Retention.SortByUsage | src/services/knowledgebase.service.ts:242-245 | the sort is a permutation |
| Retention.InsertSorted | src/services/knowledgebase.service.ts:242-245 | insertion keeps a list sorted by (usageCount, lastUsed) |
| Retention.SortByUsageSorted | src/services/knowledgebase.service.ts:242-245 | the sort result is ascending by (usageCount, lastUsed) |
| Retention.SortByUsageStable | src/services/knowledgebase.service.ts:242-245 | the sort is stable: entries with equal keys keep their relative order |
| Retention.CleanupEntries | src/services/knowledgebase.service.ts:240-249 | cleanup keeps min(n, 500) entries, all drawn from its input |
| Retention.CleanupKeepsLeastUsed | src/services/knowledgebase.service.ts:240-249 | every kept entry orders at or before every evicted one, so the most-used entries are the ones evicted |
| Retention.CleanupSortedPermutation | src/services/knowledgebase.service.ts:240-249 | the result is sorted, and with at most 500 entries it is a permutation of the input |
| Retention.CleanupReorders | src/services/knowledgebase.service.ts:240-249 | cleanup changes list order even without evicting anything |
| Knowledgebase.Save | src/services/knowledgebase.service.ts:326-344 | within 500 KB the entries are kept as they are; above it they come out sorted by (usageCount, lastUsed), truncated to min(n, 500), as a sub-multiset of the input that loses nothing from at most 500 entries |
| Knowledgebase.SaveKeepsLeastUsed | src/services/knowledgebase.service.ts:326-344 | every entry saving drops orders at or after every entry it keeps |
| Knowledgebase.RoundHundredths | src/services/knowledgebase.service.ts:353 | `Math.round(x*100)/100` is a whole number of hundredths within 0.005 of x |
| Knowledgebase.RefreshStats | src/services/knowledgebase.service.ts:346-357 | updating the statistics sets the entry count, sets the stored size to a whole number of hundredths within 0.005 of the serialized size, and keeps hits and misses |
| Knowledgebase.MarkUsed | src/services/knowledgebase.service.ts:226-235 | only entries with the id change, and only in usageCount (+1) and lastUsed (:= now) |
| Knowledgebase.Scores | src/services/knowledgebase.service.ts:124-137 | one confidence per entry, in list order |
| Knowledgebase.ScanFrom | src/services/knowledgebase.service.ts:122-145 | the loop ends holding the earliest index of the maximum confidence at or above 0.7, or nothing when no confidence reaches 0.7 |
| Knowledgebase.FirstMaxUnique | src/services/knowledgebase.service.ts:140-143 | the earliest maximal index above the threshold is unique |
| Knowledgebase.BestIndexSomeIff | src/services/knowledgebase.service.ts:122-145 | a best match exists exactly when some confidence is at least 0.7 |
| Knowledgebase.FindMatch | src/services/knowledgebase.service.ts:112-156 | an empty store counts a miss and returns null; an untokenizable query changes nothing; a miss keeps the entries and the hits; a hit adds one hit and nothing else to the counters |
| Knowledgebase.FindMatchHitIff | src/services/knowledgebase.service.ts:119-147 | for a tokenizable query, the result is non-null exactly when some entry reaches confidence 0.7 |
| Knowledgebase.FindMatchIsFirstBest | src/services/knowledgebase.service.ts:122-145 | the match is the earliest entry in list order with the maximum confidence, and that confidence is at least 0.7 |
| Knowledgebase.FindMatchEffects | src/services/knowledgebase.service.ts:147-153 | a hit marks the matched id as used and saves; a miss leaves the entries alone and adds one miss |
| Knowledgebase.FindMatchCountsOnce | src/services/knowledgebase.service.ts:112-156 | each lookup counts exactly one hit or miss, except an untokenizable query against a non-empty store |
| Knowledgebase.NewEntry | src/services/knowledgebase.service.ts:191-206 | the new entry carries the given id, context and source, the trimmed texts, the tokens of the trimmed question, usage 0, and createdAt = lastUsed = now |
| Knowledgebase.Admit | src/services/knowledgebase.service.ts:209-214 | below capacity the entry is prepended; at capacity cleanup brings the count back to 500, sorted by (usageCount, lastUsed), keeping entries drawn from the old list and the new entry |
| Knowledgebase.AdmitKeepsLeastUsed | src/services/knowledgebase.service.ts:209-214 | at capacity, every entry cleanup drops (the new one included) orders at or after every entry it keeps |
| Knowledgebase.Learn | src/services/knowledgebase.service.ts:161-221 | admitted exactly when the length, error-indicator and duplicate gates pass; a rejection leaves the store unchanged; an admitted question leaves the entries as the new entry prepended, cleaned up when that exceeds 500 entries, then saved; at most 500 entries, drawn from the old ones and the new entry, with a current count and unchanged hits and misses |
| Knowledgebase.LearnKeepsLeastUsed | src/services/knowledgebase.service.ts:209-214 | after learning, every entry dropped by either cleanup, the new one included, orders at or after every entry that stays |
| Knowledgebase.LearnPrepends | src/services/knowledgebase.service.ts:209-217 | with room and a small enough store, learning prepends the new entry and changes nothing else |
| Knowledgebase.TokenlessQuestionLearnable | src/services/knowledgebase.service.ts:184-188 | a question without tokens passes the duplicate check |
| Knowledgebase.LearnedEntryEvictedAtCapacity | src/services/knowledgebase.service.ts:209-214 | at capacity, with every stored entry unused and older, the entry just learned is the one evicted |
| Knowledgebase.StrictMaximumEvicted | src/services/knowledgebase.service.ts:240-249 | an entry ordering strictly after 500 others is evicted by cleanup |
| Knowledgebase.Clear | src/services/knowledgebase.service.ts:254-258 | clearing empties the entries and sets the count to 0, but keeps hits and misses |
| Knowledgebase.RemoveId | src/services/knowledgebase.service.ts:271 | the filter leaves no entry with the id |
| Knowledgebase.RemoveIdCounts | src/services/knowledgebase.service.ts:271 | the filter deletes every copy of the entries with the id and keeps every other entry, with its multiplicity |
| Knowledgebase.RemoveIdAppend | src/services/knowledgebase.service.ts:271 | the filter works element by element, so the remaining entries keep their order |
| Knowledgebase.RemoveIdAbsent | src/services/knowledgebase.service.ts:271 | removing an absent id changes nothing |
| Knowledgebase.RemoveEntry | src/services/knowledgebase.service.ts:270-274 | the entries are the filtered list after saving: no entry has the id; within 500 KB exactly the filtered list; above it the first min(n, 500) of its usage sort, a sorted sub-multiset that loses nothing when at most 500 remain; the count is current and hits and misses are kept |
| Knowledgebase.RemoveEntryKeepsLeastUsed | src/services/knowledgebase.service.ts:270-274 | every entry that saving after a removal drops orders at or after every entry it keeps |
| Knowledgebase.NewRecords | src/services/knowledgebase.service.ts:289-295 | the imported records carry ids not already in the store |
| Knowledgebase.NewRecordsMembers | src/services/knowledgebase.service.ts:289-295 | every valid record with a new id is imported |
| Knowledgebase.NewRecordsSources | src/services/knowledgebase.service.ts:289-295 | every imported entry comes from a valid record with a new id |
| Knowledgebase.ImportRecords | src/services/knowledgebase.service.ts:286-305 | unparseable input imports 0 records and changes nothing; otherwise the count is the number of new records and the entries are the new records followed by the old ones, saved: unchanged within 500 KB, and above it the first min(n, 500) of their usage sort, sorted; the entry count is current and hits and misses are kept |
| Knowledgebase.ImportKeepsLeastUsed | src/services/knowledgebase.service.ts:286-305 | above the size limit import keeps the least used: every dropped entry orders at or after every kept one |
| Knowledgebase.ImportExceedsCap | src/services/knowledgebase.service.ts:286-305 | import does not enforce the 500-entry cap |
| Knowledgebase.ImportKeepsBatchDuplicates | src/services/knowledgebase.service.ts:289-295 | ids are deduplicated only against the store, not within one batch |
| Knowledgebase.StepKeepsConsistent | src/services/knowledgebase.service.ts:112-274 | lookups, learning, removal and clearing keep at most 500 entries with a current count, and never decrease hits or misses |
| FollowUp.TrimAll | src/services/ai.services.ts:343 | each field is replaced by its trimmed form |
| FollowUp.KeepShort | src/services/ai.services.ts:344 | only fields of length 1 to 99 survive, each drawn from the input |
| FollowUp.KeepShortKeepsShort | src/services/ai.services.ts:344 | every field of length 1 to 99 survives |
| FollowUp.KeepShortSingle | src/services/ai.services.ts:344 | a single field survives exactly when its length is 1 to 99 |
| FollowUp.KeepShortAppend | src/services/ai.services.ts:344 | the filter distributes over concatenation, so survivors keep their order and multiplicity |
| FollowUp.TakeSuggestions | src/services/ai.services.ts:345 | the first min(n, 3) suggestions, as a prefix |
| FollowUp.Suggestions | src/services/ai.services.ts:340-345 | at most 3 suggestions, each trimmed, non-empty, shorter than 100 characters and free of the pipe |
| FollowUp.SuggestionsOfFields | src/services/ai.services.ts:339-345 | for any text: the suggestions are the first three pipe-fields of the text that are 1 to 99 characters once trimmed; trimming the whole text first changes nothing |
| FollowUp.SuggestionsOfJoinedFields | src/services/ai.services.ts:339-345 | pipe-free fields joined with the pipe give the first three of those fields that are short once trimmed |
| FollowUp.TrimAllClean | src/services/ai.services.ts:343 | clean fields are unchanged by the per-field trim |
| FollowUp.FirstThreeSuggestions | src/services/ai.services.ts:339-345 | with more than three clean fields, exactly the first three are kept (four one-letter fields a, b, c, d give a, b, c) |
| FollowUp.EmptyFieldSkipped | src/services/ai.services.ts:339-345 | an empty field between two pipes is skipped (the fields a, empty, b give a, b) |
| FollowUp.ParseFollowUpActions | src/services/ai.services.ts:335-351 | without the marker the text is returned unchanged with no suggestions; with it, the final text is the trimmed text before the first marker; there are at most 3 suggestions, all clean |
| FollowUp.ParseAtMarker | src/services/ai.services.ts:336-347 | the suggestions come from the text after the first marker when there is no second marker |
| FollowUp.ParsedSuggestions | src/services/ai.services.ts:335-347 | with the marker present, the suggestions are the first three short trimmed pipe-fields of whatever follows the first marker, up to a second one |
| FollowUp.TextAfterSecondMarkerIgnored | src/services/ai.services.ts:336-340 | text appended after a second marker does not change the result |
| FollowUp.SuggestionsOfJoin | src/services/ai.services.ts:340-345 | up to 3 clean suggestions joined with the pipe parse back as exactly those suggestions, in order |
| FollowUp.SuggestionsRoundTrip | src/services/ai.services.ts:335-351 | a marker-free text, the marker and a pipe-joined list of clean suggestions parse back into the text and the list |
| FollowUp.GetLanguageName | src/services/ai.services.ts:353-367 | the result is one of the nine names, and every unmapped code gives "English" |
| FollowUp.EnglishIsTheDefault | src/services/ai.services.ts:353-367 | the name is "English" exactly for "en" and the unmapped codes |
| Auth.ToInt32 | src/services/auth.service.ts:320-321 | the 32-bit conversion lands in the signed range and is congruent to its input modulo 2^32 |
| Auth.ToInt32Congruent | src/services/auth.service.ts:320-321 | the conversion ignores multiples of 2^32 |
| Auth.ShiftStepIsHashStep | src/services/auth.service.ts:320-321 | `(h << 5) - h + c` with the int32 truncations equals ToInt32(31·h + c) |
| Auth.SimpleHash | src/services/auth.service.ts:316-324 | the loop computes the recurrence h₀ = 0, hₙ₊₁ = ToInt32(31·hₙ + codeUnit) over the whole string, in the signed 32-bit range |
| Auth.HashCollision | src/services/auth.service.ts:316-324 | "Aa" and "BB" have the same hash |
| Auth.IsValidEmailMatchesRegex | src/services/auth.service.ts:303-306 | the scanner accepts exactly the strings matching ^[^\s@]+@[^\s@]+\.[^\s@]+$ |
| Auth.FindByEmail | src/services/auth.service.ts:116-121 | the lookup finds a user whose lower-cased email matches, or reports that no user has it |
| Auth.FindFirst | src/services/auth.service.ts:117 | the lookup returns the first matching user |
| Auth.Signup | src/services/auth.service.ts:24-77 | the checks run in order (missing field, email format, password length, reserved email, existing email in any case) and the refusal names the first that fails; a refusal changes nothing; success happens exactly when all pass, appends User(freshId, lower-cased email, name, user role, createdAt), stores the hash of the password under freshId and signs that user in |
| Auth.SignupRefusesCaseVariant | src/services/auth.service.ts:43-47 | an email already registered in any case is refused |
| Auth.SignupRefusesSuperAdminEmail | src/services/auth.service.ts:38-41 | the super-admin email is reserved in any case |
| Auth.LoginAfterSignup | src/services/auth.service.ts:24-141 | after a successful signup, the same credentials log in |
| Auth.Login | src/services/auth.service.ts:82-141 | an empty email or password is refused as missing; the reserved email (any case) succeeds exactly with the fixed password and signs in the fixed super-admin; any other email succeeds exactly when the first user with that email (any case) has a matching hash, and signs that user in; login never changes the tables and a refusal keeps the current user |
| Auth.SuperAdminLogin | src/services/auth.service.ts:90-109 | the hard-coded credentials sign in the fixed super-admin without reading the tables |
| Auth.LoginSucceedsIff | src/services/auth.service.ts:115-132 | for a non-empty email that is not the reserved one and a non-empty password, login succeeds exactly when a user with that email exists and the stored hash equals the hash of the password |
| Auth.LoginAcceptsCollidingPassword | src/services/auth.service.ts:124-129 | a password whose hash collides with the stored one is accepted |
| Auth.ChangePassword | src/services/auth.service.ts:177-212 | no user signed in, a short new password, and the super-admin are refused in that order; success happens exactly when a signed-in user other than the super-admin gives the right old password and a new one of at least 8 characters; only that user's hash changes, to the hash of the new password; a refusal changes nothing |
| Auth.ChangePasswordThenLogin | src/services/auth.service.ts:177-212 | after a change, the user's email signs in with the new password, and an old password with a different hash is refused as incorrect |
| Auth.RemoveUser | src/services/auth.service.ts:239 | the filter removes exactly the users with the id, never lengthens the list, and keeps every other user |
| Auth.RemoveUserCounts | src/services/auth.service.ts:239 | every user without the id keeps its multiplicity and those with it vanish |
| Auth.RemoveUserAppend | src/services/auth.service.ts:239 | the filter distributes over concatenation, so the remaining users keep their order |
| Auth.DeleteAccount | src/services/auth.service.ts:217-256 | no user signed in and an admin are refused in that order; success happens exactly when a signed-in non-admin gives the right password; it leaves the user list filtered of that id, the password map minus exactly that id, and no one signed in; a refusal changes nothing |
| Auth.DeletedAccountCannotLogin | src/services/auth.service.ts:217-256 | after deleting the account, its email no longer logs in |
| Auth.CreateAdminUser | src/services/auth.service.ts:327-352 | it succeeds exactly when no user has the identical email string; the existing users are kept and User(freshId, email, name, admin role, createdAt) appended, the hash of the password stored under freshId with every other hash kept, and the current user untouched |
| Auth.CaseVariantAdminAccepted | src/services/auth.service.ts:330 | an email differing only in case from an existing one is accepted |
| Auth.CreatedAdminCanLogin | src/services/auth.service.ts:327-352 | an admin created with an email no user has in any case signs in with its password |
| Auth.CaseVariantAdminShadowed | src/services/auth.service.ts:327-352 | an admin created with a case variant of an earlier user's email is shadowed at sign-in: the earlier user is found and the admin's password is refused as incorrect |
| Auth.DeleteUser | src/services/auth.service.ts:355-359 | the user list becomes the order-preserving filter of the id, so no user with the id remains and every other user keeps its place and multiplicity; the password map and current user are untouched |
| Auth.DeleteUserKeepsPassword | src/services/auth.service.ts:355-359 | the deleted user's password hash stays behind |
| Auth.DeletedUserNotFound | src/services/auth.service.ts:355-359 | after deleteUser, an email that no remaining user has in any case is not found at sign-in |

## Left out

- Persistence. `loadFromStorage`, `exportToJSON`, `localStorage`, `JSON.parse`/`JSON.stringify` and `Blob` sizing are not modelled.
  - The serialized size is the uninterpreted parameter `sizeKB`.
  - A failed write (the `catch` in `saveToStorage`) is not modelled.
  - `importFromJSON` takes already-parsed records, with `None` for a parse failure.
  - A record's token list is represented only by whether it is present, since an empty array is truthy.
- Floating point. Scores, the 0.7 and 0.9 thresholds and the `storageSizeKB` rounding use exact reals, so IEEE rounding at the boundaries is not modelled.
- Knowledgebase.RoundHundredths: states that the rounded size is a whole number of hundredths within 0.005 of the exact one, on exact reals; the binary floating-point value JavaScript stores is not modelled.
- Unicode. `toLowerCase` maps ASCII letters only; `\w` is [A-Za-z0-9_]; whitespace is the ECMAScript WhiteSpace and LineTerminator set as single `char`s.
  - Characters outside the Basic Multilingual Plane, and string lengths in UTF-16 code units, are not modelled.
  - For `simpleHash`, a Dafny `char` stands for one UTF-16 code unit.
- The hash is stored as the integer rather than its `toString(36)` text. That conversion is injective, so string equality of hashes is integer equality.
- Clock and ids. `Date.now()`, `generateId`, `generateUserId` and `new Date().toISOString()` are parameters.
  - Nothing requires a fresh id to be unused, since the source does not check it.
  - The super-admin's creation time is the fixed string the source produces.
- Context defaults. `learn` copies `state || ''`, `sector || ''` and `intent || ''`. In the model these fields are always strings, so the copy is the context itself.
- `getAllEntries` and `getAllUsers` are plain getters and are not modelled.
- `logout`, `isAuthenticated` and `isAdmin` are left out. Their account-table effect (signing out) is part of Auth.DeleteAccount.
- Notifications, view changes, clearing the chat, and Angular signals and dependency injection are left out; they are UI plumbing.
- Auth outcomes carry a reason code (`Reason`) instead of the user-facing message text.
- getLanguageName: keys inherited from `Object.prototype`, such as "constructor", are treated like any other unmapped code.
- The LLM provider calls and prompt builders of the AI service are left out: they are network I/O. The AI service never consults the knowledgebase.

=== FILE: auth.dfy ===
/**
 * The account rules of `AuthService` over an explicit account table: the
 * users, a map from user id to password hash, and the signed-in user. The id
 * generator and the clock are parameters (`freshId`, `createdAt`).
 */
module Auth {
  import opened Options
  import opened Text

  // ---------- simpleHash ----------

  const TwoTo31: int := 0x8000_0000
  const TwoTo32: int := 0x1_0000_0000

  /** ECMAScript ToInt32 on an integer: wrap modulo 2^32 into [-2^31, 2^31). */
  function ToInt32(x: int): (r: int)
    ensures -TwoTo31 <= r < TwoTo31
    ensures (x - r) % TwoTo32 == 0
  {
    var m := x % TwoTo32;
    if m >= TwoTo31 then m - TwoTo32 else m
  }

  /** ToInt32 only depends on its argument modulo 2^32. */
  lemma ToInt32Congruent(x: int, k: int)
    ensures ToInt32(x + k * TwoTo32) == ToInt32(x)
  {
    assert (x + k * TwoTo32) % TwoTo32 == x % TwoTo32;
  }

  /** One step of the hash recurrence: h := ToInt32(31 * h + code unit). */
  function HashStep(h: int, c: char): (r: int)
    ensures -TwoTo31 <= r < TwoTo31
  {
    ToInt32(31 * h + c as int)
  }

  /** `simpleHash` as a recurrence over the characters, starting from 0. */
  function HashOf(s: string): (r: int)
    ensures -TwoTo31 <= r < TwoTo31
  {
    if s == [] then 0 else HashStep(HashOf(s[..|s| - 1]), s[|s| - 1])
  }

  /** `((h << 5) - h) + c` followed by `h & h` is the recurrence step. */
  lemma ShiftStepIsHashStep(h: int, c: char)
    ensures ToInt32(ToInt32(h * 32) - h + c as int) == HashStep(h, c)
  {
    var w := ToInt32(h * 32);
    var k := (h * 32 - w) / TwoTo32;
    assert h * 32 - w == k * TwoTo32;
    assert w - h + c as int == (31 * h + c as int) + (-k) * TwoTo32;
    ToInt32Congruent(31 * h + c as int, -k);
  }

  /** `simpleHash`, step by step as the source computes it. */
  method SimpleHash(s: string) returns (h: int)
    ensures h == HashOf(s)
    ensures -TwoTo31 <= h < TwoTo31
  {
    h := 0;
    var i := 0;
    while i < |s|
      invariant 0 <= i <= |s|
      invariant h == HashOf(s[..i])
    {
      var c := s[i];
      ShiftStepIsHashStep(h, c);
      h := ToInt32(ToInt32(h * 32) - h + c as int);
      assert s[..i + 1][..i] == s[..i];
      i := i + 1;
    }
    assert s[..|s|] == s;
  }

  /** The hash is not injective: "Aa" and "BB" collide (31 * 65 + 97 == 31 * 66 + 66). */
  lemma HashCollision()
    ensures HashOf("Aa") == HashOf("BB") == 2112
  {
    assert ToInt32(65) == 65 && ToInt32(66) == 66 && ToInt32(2112) == 2112;
    assert "A"[..0] == [] && "B"[..0] == [];
    assert HashOf("A") == 65 && HashOf("B") == 66;
    assert "Aa"[..1] == "A" && "BB"[..1] == "B";
  }

  // ---------- isValidEmail ----------

  /** Not whitespace and not '@': the class [^\s@]. */
  predicate EmailChar(c: char) {
    !IsSpace(c) && c != '@'
  }

  /** The language of /^[^\s@]+@[^\s@]+\.[^\s@]+$/: one '@' at i and a '.' at j, with non-empty runs around both. */
  predicate EmailShape(s: string) {
    exists i, j :: 0 < i && i + 1 < j < |s| - 1 && s[i] == '@' && s[j] == '.'
                   && (forall k :: 0 <= k < |s| && k != i ==> EmailChar(s[k]))
  }

  /** The index of the first c in s at or after `from`, or |s|. */
  function CharIndex(s: string, c: char, from: nat): (k: nat)
    requires from <= |s|
    ensures from <= k <= |s|
    ensures k < |s| ==> s[k] == c
    ensures forall m :: from <= m < k ==> s[m] != c
    decreases |s| - from
  {
    if from == |s| || s[from] == c then from else CharIndex(s, c, from + 1)
  }

  /** `isValidEmail`, computed: no whitespace, one '@' not first, a '.' strictly inside what follows it. */
  predicate IsValidEmail(s: string) {
    var at := CharIndex(s, '@', 0);
    && 0 < at < |s|
    && at + 2 < |s|
    && (forall k :: 0 <= k < |s| && k != at ==> EmailChar(s[k]))
    && CharIndex(s, '.', at + 2) < |s| - 1
  }

  lemma IsValidEmailMatchesRegex(s: string)
    ensures IsValidEmail(s) <==> EmailShape(s)
  {
    if IsValidEmail(s) {
      var at := CharIndex(s, '@', 0);
      var dot := CharIndex(s, '.', at + 2);
      assert 0 < at && at + 1 < dot < |s| - 1 && s[at] == '@' && s[dot] == '.';
    }
    if EmailShape(s) {
      var i, j :| 0 < i && i + 1 < j < |s| - 1 && s[i] == '@' && s[j] == '.'
                  && (forall k :: 0 <= k < |s| && k != i ==> EmailChar(s[k]));
      var at := CharIndex(s, '@', 0);
      assert at <= i;
      assert !EmailChar(s[at]);
      assert CharIndex(s, '.', at + 2) <= j;
    }
  }

  // ---------- The account table ----------

  datatype Role = UserRole | AdminRole

  datatype User = User(id: string, email: string, name: string, role: Role, createdAt: string)

  /** The stored users, the password hash of each user id, and the signed-in user. */
  datatype Accounts = Accounts(users: seq<User>, passwords: map<string, int>, current: Option<User>)

  /** Why an operation was refused; each reason stands for one message of the source. */
  datatype Reason =
    | MissingField | InvalidEmail | ShortPassword | ReservedEmail | EmailTaken
    | UserNotFound | IncorrectPassword | NotAuthenticated | SuperAdminFixed
    | AdminUndeletable | UserExists

  datatype Outcome = Ok | Refused(reason: Reason)

  datatype AuthResult = AuthResult(accounts: Accounts, outcome: Outcome)

  const MinPasswordLength: nat := 8
  const SuperAdminEmail: string := "admin@govinfo.ai"
  const SuperAdminPassword: string := "GovInfoAdmin@2024"
  const SuperAdminName: string := "System Administrator"
  const SuperAdminId: string := "super-admin"
  const SuperAdminCreated: string := "2024-01-01T00:00:00.000Z"

  const SuperAdmin: User := User(SuperAdminId, SuperAdminEmail, SuperAdminName, AdminRole, SuperAdminCreated)

  /** `users.find(u => u.email.toLowerCase() === emailLower)`. */
  function FindByEmail(users: seq<User>, emailLower: string): (r: Option<User>)
    ensures r.Some? ==> r.value in users && Lower(r.value.email) == emailLower
    ensures r.None? ==> forall i :: 0 <= i < |users| ==> Lower(users[i].email) != emailLower
  {
    if users == [] then None
    else if Lower(users[0].email) == emailLower then Some(users[0])
    else FindByEmail(users[1..], emailLower)
  }

  /** The password hash stored for an id matches the password (`storedHash === simpleHash(password)`). */
  predicate HashMatches(passwords: map<string, int>, id: string, password: string) {
    id in passwords && passwords[id] == HashOf(password)
  }

  /** No email of the list equals `email` once both are lower-cased. */
  predicate EmailFree(users: seq<User>, email: string) {
    forall i :: 0 <= i < |users| ==> Lower(users[i].email) != Lower(email)
  }

  /**
   * `signup`: the checks in order (a field missing, the email's format, the
   * password's length, the reserved super-admin email, an existing email in any
   * case); the first that fails names the refusal. Then the user is appended with
   * its email lower-cased, its hash stored, and it is signed in.
   */
  function Signup(a: Accounts, email: string, password: string, name: string,
                  freshId: string, createdAt: string): (r: AuthResult)
    ensures r.outcome.Refused? ==> r.accounts == a
    ensures r.outcome == Ok ==> (
      && |r.accounts.users| == |a.users| + 1 && r.accounts.users[..|a.users|] == a.users
      && r.accounts.current == Some(r.accounts.users[|a.users|]))
    ensures r.outcome == Ok ==> (
      && r.accounts.users[|a.users|] == User(freshId, Lower(email), name, UserRole, createdAt)
      && r.accounts.passwords == a.passwords[freshId := HashOf(password)])
    ensures r.outcome == Ok <==> (
      && email != "" && password != "" && name != ""
      && IsValidEmail(email) && |password| >= MinPasswordLength
      && Lower(email) != Lower(SuperAdminEmail)
      && EmailFree(a.users, email))
    ensures r.outcome == Refused(MissingField) <==> (email == "" || password == "" || name == "")
    ensures r.outcome == Refused(InvalidEmail) <==> (
      email != "" && password != "" && name != "" && !IsValidEmail(email))
    ensures r.outcome == Refused(ShortPassword) <==> (
      email != "" && password != "" && name != "" && IsValidEmail(email) && |password| < MinPasswordLength)
    ensures r.outcome == Refused(ReservedEmail) <==> (
      && email != "" && password != "" && name != "" && IsValidEmail(email) && |password| >= MinPasswordLength
      && Lower(email) == Lower(SuperAdminEmail))
    ensures r.outcome == Refused(EmailTaken) <==> (
      && email != "" && password != "" && name != "" && IsValidEmail(email) && |password| >= MinPasswordLength
      && Lower(email) != Lower(SuperAdminEmail) && !EmailFree(a.users, email))
  {
    if email == "" || password == "" || name == "" then AuthResult(a, Refused(MissingField))
    else if !IsValidEmail(email) then AuthResult(a, Refused(InvalidEmail))
    else if |password| < MinPasswordLength then AuthResult(a, Refused(ShortPassword))
    else if Lower(email) == Lower(SuperAdminEmail) then AuthResult(a, Refused(ReservedEmail))
    else if FindByEmail(a.users, Lower(email)).Some? then AuthResult(a, Refused(EmailTaken))
    else
      var user := User(freshId, Lower(email), name, UserRole, createdAt);
      AuthResult(Accounts(a.users + [user], a.passwords[freshId := HashOf(password)], Some(user)), Ok)
  }

  /** `login`: the super-admin credentials succeed without the table; otherwise the first user with the email (any case) and a matching hash. */
  function Login(a: Accounts, email: string, password: string): (r: AuthResult)
    ensures r.accounts.users == a.users && r.accounts.passwords == a.passwords
    ensures r.outcome.Refused? ==> r.accounts.current == a.current
    ensures r.outcome == Ok ==> r.accounts.current.Some?
    ensures email == "" || password == "" ==> r.outcome == Refused(MissingField)
    ensures email != "" && password != "" && Lower(email) == Lower(SuperAdminEmail)
            ==> (r.outcome == Ok <==> password == SuperAdminPassword)
    ensures email != "" && password != "" && Lower(email) != Lower(SuperAdminEmail)
            ==> (r.outcome == Ok <==> FindByEmail(a.users, Lower(email)).Some?
                                      && HashMatches(a.passwords, FindByEmail(a.users, Lower(email)).value.id, password))
    ensures r.outcome == Ok && Lower(email) == Lower(SuperAdminEmail) ==> r.accounts.current == Some(SuperAdmin)
    ensures r.outcome == Ok && Lower(email) != Lower(SuperAdminEmail)
            ==> r.accounts.current == FindByEmail(a.users, Lower(email))
  {
    if email == "" || password == "" then AuthResult(a, Refused(MissingField))
    else if Lower(email) == Lower(SuperAdminEmail) then
      if password == SuperAdminPassword then AuthResult(a.(current := Some(SuperAdmin)), Ok)
      else AuthResult(a, Refused(IncorrectPassword))
    else
      match FindByEmail(a.users, Lower(email))
      case None => AuthResult(a, Refused(UserNotFound))
      case Some(user) =>
        if !HashMatches(a.passwords, user.id, password) then AuthResult(a, Refused(IncorrectPassword))
        else AuthResult(a.(current := Some(user)), Ok)
  }

  /** `changePassword`: only the signed-in user's hash changes, and only after the old password is checked. */
  function ChangePassword(a: Accounts, oldPassword: string, newPassword: string): (r: AuthResult)
    ensures r.accounts.users == a.users && r.accounts.current == a.current
    ensures r.outcome.Refused? ==> r.accounts == a
    ensures a.current.None? ==> r.outcome == Refused(NotAuthenticated)
    ensures a.current.Some? && |newPassword| < MinPasswordLength ==> r.outcome == Refused(ShortPassword)
    ensures a.current.Some? && |newPassword| >= MinPasswordLength
            && a.current.value.role.AdminRole? && a.current.value.id == SuperAdminId
            ==> r.outcome == Refused(SuperAdminFixed)
    ensures r.outcome == Ok <==> (
      && a.current.Some? && |newPassword| >= MinPasswordLength
      && !(a.current.value.role.AdminRole? && a.current.value.id == SuperAdminId)
      && HashMatches(a.passwords, a.current.value.id, oldPassword))
    ensures r.outcome == Ok ==> r.accounts.passwords == a.passwords[a.current.value.id := HashOf(newPassword)]
    ensures r.outcome == Ok ==> (
      && a.current.Some? && |newPassword| >= MinPasswordLength
      && HashMatches(a.passwords, a.current.value.id, oldPassword)
      && HashMatches(r.accounts.passwords, a.current.value.id, newPassword))
    ensures forall id :: (id in a.passwords && (a.current.None? || id != a.current.value.id)
      ==> id in r.accounts.passwords && r.accounts.passwords[id] == a.passwords[id])
  {
    match a.current
    case None => AuthResult(a, Refused(NotAuthenticated))
    case Some(user) =>
      if |newPassword| < MinPasswordLength then AuthResult(a, Refused(ShortPassword))
      else if user.role.AdminRole? && user.id == SuperAdminId then AuthResult(a, Refused(SuperAdminFixed))
      else if !HashMatches(a.passwords, user.id, oldPassword) then AuthResult(a, Refused(IncorrectPassword))
      else AuthResult(a.(passwords := a.passwords[user.id := HashOf(newPassword)]), Ok)
  }

  /** `users.filter(u => u.id !== id)`. */
  function RemoveUser(users: seq<User>, id: string): (r: seq<User>)
    ensures |r| <= |users|
    ensures forall i :: 0 <= i < |r| ==> r[i].id != id && r[i] in users
    ensures forall i :: 0 <= i < |users| && users[i].id != id ==> users[i] in r
  {
    if users == [] then []
    else if users[0].id != id then [users[0]] + RemoveUser(users[1..], id)
    else RemoveUser(users[1..], id)
  }

  /** Exactly the users with the id are removed: every other user keeps its multiplicity. */
  lemma {:induction false} RemoveUserCounts(users: seq<User>, id: string, u: User)
    ensures multiset(RemoveUser(users, id))[u] == if u.id == id then 0 else multiset(users)[u]
  {
    if users != [] {
      RemoveUserCounts(users[1..], id, u);
      var rest := RemoveUser(users[1..], id);
      assert multiset(users) == multiset{users[0]} + multiset(users[1..]) by {
        assert users == [users[0]] + users[1..];
      }
      if users[0].id != id {
        assert multiset(RemoveUser(users, id)) == multiset{users[0]} + multiset(rest);
      }
    } else {
      assert multiset(RemoveUser(users, id)) == multiset{};
    }
  }

  /** Filtering distributes over concatenation, so the remaining users keep their order. */
  lemma {:induction false} RemoveUserAppend(a: seq<User>, b: seq<User>, id: string)
    ensures RemoveUser(a + b, id) == RemoveUser(a, id) + RemoveUser(b, id)
  {
    if a == [] {
      assert a + b == b;
    } else {
      assert (a + b)[0] == a[0];
      assert (a + b)[1..] == a[1..] + b;
      RemoveUserAppend(a[1..], b, id);
    }
  }

  /** `deleteAccount`: a non-admin signed-in user with the right password loses the account and is signed out. */
  function DeleteAccount(a: Accounts, password: string): (r: AuthResult)
    ensures r.outcome.Refused? ==> r.accounts == a
    ensures a.current.None? ==> r.outcome == Refused(NotAuthenticated)
    ensures a.current.Some? && a.current.value.role.AdminRole? ==> r.outcome == Refused(AdminUndeletable)
    ensures r.outcome == Ok <==> (
      && a.current.Some? && a.current.value.role.UserRole?
      && HashMatches(a.passwords, a.current.value.id, password))
    ensures r.outcome == Ok ==> r.accounts.users == RemoveUser(a.users, a.current.value.id)
    ensures r.outcome == Ok ==> r.accounts.passwords == a.passwords - {a.current.value.id}
    ensures r.outcome == Ok ==> (
      && r.accounts.current.None?
      && (forall i :: 0 <= i < |r.accounts.users| ==> r.accounts.users[i].id != a.current.value.id)
      && a.current.value.id !in r.accounts.passwords
      && (forall id :: (id in a.passwords && id != a.current.value.id
           ==> id in r.accounts.passwords && r.accounts.passwords[id] == a.passwords[id])))
  {
    match a.current
    case None => AuthResult(a, Refused(NotAuthenticated))
    case Some(user) =>
      if user.role.AdminRole? then AuthResult(a, Refused(AdminUndeletable))
      else if !HashMatches(a.passwords, user.id, password) then AuthResult(a, Refused(IncorrectPassword))
      else
        var remaining := a.passwords - {user.id};
        assert forall id :: id in a.passwords && id != user.id ==> id in remaining && remaining[id] == a.passwords[id];
        AuthResult(Accounts(RemoveUser(a.users, user.id), remaining, None), Ok)
  }

  /** `createAdminUser`: refuses only an exact-case duplicate email; no other validation, no sign-in. */
  function CreateAdminUser(a: Accounts, name: string, email: string, password: string,
                           freshId: string, createdAt: string): (r: AuthResult)
    ensures r.accounts.current == a.current
    ensures r.outcome == Ok <==> forall i :: 0 <= i < |a.users| ==> a.users[i].email != email
    ensures r.outcome.Refused? ==> r.accounts == a
    ensures r.outcome == Ok ==> (
      && |r.accounts.users| == |a.users| + 1
      && r.accounts.users[|a.users|].email == email && r.accounts.users[|a.users|].role.AdminRole?
      && HashMatches(r.accounts.passwords, freshId, password))
    ensures r.outcome == Ok ==> (
      && r.accounts.users == a.users + [User(freshId, email, name, AdminRole, createdAt)]
      && r.accounts.passwords == a.passwords[freshId := HashOf(password)])
  {
    if exists i :: 0 <= i < |a.users| && a.users[i].email == email then AuthResult(a, Refused(UserExists))
    else
      var user := User(freshId, email, name, AdminRole, createdAt);
      AuthResult(a.(users := a.users + [user], passwords := a.passwords[freshId := HashOf(password)]), Ok)
  }

  /** `deleteUser`: removes the user record and nothing else. */
  function DeleteUser(a: Accounts, userId: string): (r: Accounts)
    ensures forall i :: 0 <= i < |r.users| ==> r.users[i].id != userId
    ensures r.users == RemoveUser(a.users, userId)
    ensures forall u :: multiset(r.users)[u] == if u.id == userId then 0 else multiset(a.users)[u]
    ensures r.passwords == a.passwords && r.current == a.current
  {
    assert forall u :: multiset(RemoveUser(a.users, userId))[u] == if u.id == userId then 0 else multiset(a.users)[u] by {
      forall u ensures multiset(RemoveUser(a.users, userId))[u] == if u.id == userId then 0 else multiset(a.users)[u] {
        RemoveUserCounts(a.users, userId, u);
      }
    }
    a.(users := RemoveUser(a.users, userId))
  }

  // ---------- Properties across operations ----------

  /** A fresh account can sign in with the password it was created with. */
  lemma LoginAfterSignup(a: Accounts, email: string, password: string, name: string,
                         freshId: string, createdAt: string)
    requires Signup(a, email, password, name, freshId, createdAt).outcome == Ok
    ensures Login(Signup(a, email, password, name, freshId, createdAt).accounts, email, password).outcome == Ok
  {
    var b := Signup(a, email, password, name, freshId, createdAt).accounts;
    var user := User(freshId, Lower(email), name, UserRole, createdAt);
    LowerIdempotent(email);
    FindAfterAppend(a.users, user, Lower(email));
  }

  lemma LowerIdempotent(s: string)
    ensures Lower(Lower(s)) == Lower(s)
  {
  }

  /** Appending a user the list did not yet match makes it the first match. */
  lemma {:induction false} FindAfterAppend(users: seq<User>, user: User, emailLower: string)
    requires forall i :: 0 <= i < |users| ==> Lower(users[i].email) != emailLower
    requires Lower(user.email) == emailLower
    ensures FindByEmail(users + [user], emailLower) == Some(user)
  {
    if users == [] {
      assert users + [user] == [user];
    } else {
      assert (users + [user])[1..] == users[1..] + [user];
      FindAfterAppend(users[1..], user, emailLower);
    }
  }

  /** Signup refuses an email that differs from a stored one only in ASCII case. */
  lemma SignupRefusesCaseVariant(a: Accounts, email: string, password: string, name: string,
                                 freshId: string, createdAt: string, i: nat)
    requires i < |a.users| && Lower(a.users[i].email) == Lower(email)
    ensures Signup(a, email, password, name, freshId, createdAt).outcome.Refused?
  {
  }

  /** The super-admin email is reserved in any ASCII case. */
  lemma SignupRefusesSuperAdminEmail(a: Accounts, email: string, password: string, name: string,
                                     freshId: string, createdAt: string)
    requires Lower(email) == Lower(SuperAdminEmail)
    ensures Signup(a, email, password, name, freshId, createdAt).outcome.Refused?
  {
  }

  /** The super-admin signs in with the fixed password whatever the table holds. */
  lemma SuperAdminLogin(a: Accounts)
    ensures Login(a, SuperAdminEmail, SuperAdminPassword) == AuthResult(a.(current := Some(SuperAdmin)), Ok)
  {
  }

  /** Regular sign-in succeeds exactly when the first user with the email has a matching hash. */
  lemma LoginSucceedsIff(a: Accounts, email: string, password: string)
    requires email != "" && password != "" && Lower(email) != Lower(SuperAdminEmail)
    ensures Login(a, email, password).outcome == Ok
        <==> FindByEmail(a.users, Lower(email)).Some?
             && HashMatches(a.passwords, FindByEmail(a.users, Lower(email)).value.id, password)
  {
  }

  /** A password with the same hash as the stored one signs in too. */
  lemma LoginAcceptsCollidingPassword(a: Accounts, email: string, i: nat)
    requires i < |a.users| && a.users[i].email == email && email != ""
    requires Lower(email) != Lower(SuperAdminEmail)
    requires forall j :: 0 <= j < i ==> Lower(a.users[j].email) != Lower(email)
    requires a.users[i].id in a.passwords && a.passwords[a.users[i].id] == HashOf("Aa")
    ensures Login(a, email, "BB").outcome == Ok
  {
    HashCollision();
    FindFirst(a.users, Lower(email), i);
  }

  /** The first user whose email matches is the one found. */
  lemma {:induction false} FindFirst(users: seq<User>, emailLower: string, i: nat)
    requires i < |users| && Lower(users[i].email) == emailLower
    requires forall j :: 0 <= j < i ==> Lower(users[j].email) != emailLower
    ensures FindByEmail(users, emailLower) == Some(users[i])
  {
    if i > 0 {
      FindFirst(users[1..], emailLower, i - 1);
    }
  }

  /** createAdminUser accepts an email that differs from a stored one only in case. */
  lemma CaseVariantAdminAccepted(a: Accounts, name: string, password: string, freshId: string, createdAt: string)
    requires a.users == [User("u1", "Ops@Example.com", "Ops", UserRole, "2024-05-01")]
    ensures CreateAdminUser(a, name, "ops@example.com", password, freshId, createdAt).outcome == Ok
    ensures Lower(a.users[0].email) == Lower("ops@example.com")
  {
  }

  /** deleteUser leaves the deleted user's password hash behind. */
  lemma DeleteUserKeepsPassword(a: Accounts, userId: string)
    requires userId in a.passwords
    ensures userId in DeleteUser(a, userId).passwords
    ensures forall i :: 0 <= i < |DeleteUser(a, userId).users| ==> DeleteUser(a, userId).users[i].id != userId
  {
  }

  /** A deleted account whose email no other user shares can no longer sign in. */
  lemma DeletedAccountCannotLogin(a: Accounts, password: string, loginPassword: string)
    requires DeleteAccount(a, password).outcome == Ok
    requires a.current.Some? && Lower(a.current.value.email) != Lower(SuperAdminEmail)
    requires a.current.value.email != "" && loginPassword != ""
    requires forall i :: 0 <= i < |a.users| && a.users[i].id != a.current.value.id
               ==> Lower(a.users[i].email) != Lower(a.current.value.email)
    ensures Login(DeleteAccount(a, password).accounts, a.current.value.email, loginPassword).outcome
         == Refused(UserNotFound)
  {
    var b := DeleteAccount(a, password).accounts;
    var e := Lower(a.current.value.email);
    forall i | 0 <= i < |b.users| ensures Lower(b.users[i].email) != e {
      var u := b.users[i];
      assert u in a.users;
      var j :| 0 <= j < |a.users| && a.users[j] == u;
    }
  }

  /** After a password change the new password signs the user in, and an old one with another hash no longer does. */
  lemma ChangePasswordThenLogin(a: Accounts, oldPassword: string, newPassword: string, i: nat)
    requires ChangePassword(a, oldPassword, newPassword).outcome == Ok
    requires i < |a.users| && a.users[i].id == a.current.value.id
    requires a.users[i].email != "" && Lower(a.users[i].email) != Lower(SuperAdminEmail)
    requires forall j :: 0 <= j < i ==> Lower(a.users[j].email) != Lower(a.users[i].email)
    ensures var b := ChangePassword(a, oldPassword, newPassword).accounts;
      Login(b, a.users[i].email, newPassword).outcome == Ok
    ensures var b := ChangePassword(a, oldPassword, newPassword).accounts;
      oldPassword != "" && HashOf(oldPassword) != HashOf(newPassword)
      ==> Login(b, a.users[i].email, oldPassword).outcome == Refused(IncorrectPassword)
  {
    FindFirst(a.users, Lower(a.users[i].email), i);
  }

  /** An admin created with an email no user has in any case signs in with its password. */
  lemma CreatedAdminCanLogin(a: Accounts, name: string, email: string, password: string,
                             freshId: string, createdAt: string)
    requires email != "" && password != "" && Lower(email) != Lower(SuperAdminEmail)
    requires EmailFree(a.users, email)
    ensures CreateAdminUser(a, name, email, password, freshId, createdAt).outcome == Ok
    ensures Login(CreateAdminUser(a, name, email, password, freshId, createdAt).accounts, email, password).outcome == Ok
  {
    var admin := User(freshId, email, name, AdminRole, createdAt);
    assert forall i :: 0 <= i < |a.users| ==> a.users[i].email != email;
    FindAfterAppend(a.users, admin, Lower(email));
  }

  /**
   * An admin created with a case variant of a stored email is shadowed: sign-in
   * with that email finds the older user, so the admin's password is refused.
   */
  lemma CaseVariantAdminShadowed(a: Accounts, name: string, email: string, password: string,
                                 freshId: string, createdAt: string, i: nat)
    requires email != "" && password != "" && Lower(email) != Lower(SuperAdminEmail)
    requires forall j :: 0 <= j < |a.users| ==> a.users[j].email != email
    requires i < |a.users| && Lower(a.users[i].email) == Lower(email)
    requires forall j :: 0 <= j < i ==> Lower(a.users[j].email) != Lower(email)
    requires a.users[i].id != freshId && !HashMatches(a.passwords, a.users[i].id, password)
    ensures CreateAdminUser(a, name, email, password, freshId, createdAt).outcome == Ok
    ensures Login(CreateAdminUser(a, name, email, password, freshId, createdAt).accounts, email, password).outcome
         == Refused(IncorrectPassword)
  {
    var admin := User(freshId, email, name, AdminRole, createdAt);
    var users := a.users + [admin];
    assert users[i] == a.users[i];
    FindFirst(users, Lower(email), i);
  }

  /** After deleteUser, an email that no remaining user has in any case is not found at sign-in. */
  lemma DeletedUserNotFound(a: Accounts, userId: string, email: string, password: string)
    requires email != "" && password != "" && Lower(email) != Lower(SuperAdminEmail)
    requires forall i :: 0 <= i < |a.users| && a.users[i].id != userId ==> Lower(a.users[i].email) != Lower(email)
    ensures Login(DeleteUser(a, userId), email, password).outcome == Refused(UserNotFound)
  {
    var b := DeleteUser(a, userId);
    forall i | 0 <= i < |b.users| ensures Lower(b.users[i].email) != Lower(email) {
      var u := b.users[i];
      assert u in a.users;
      var j :| 0 <= j < |a.users| && a.users[j] == u;
    }
  }
}

=== FILE: followup.dfy ===
/**
 * The reply post-processing of the AI service: `parseFollowUpActions`, which
 * splits a model reply at the follow-up marker into the answer text and at
 * most three pipe-separated suggestions, and `getLanguageName`.
 */
module FollowUp {
  import opened Options
  import opened Text

  const Marker: string := "---FOLLOW_UP---"
  const SuggestionSeparator: char := '|'
  const MaxSuggestions: nat := 3
  const MaxSuggestionLength: nat := 100

  datatype Parsed = Parsed(finalText: string, suggestions: seq<string>)

  /** A suggestion as the filter admits it: trimmed, non-empty, shorter than 100, pipe-free. */
  predicate CleanSuggestion(s: string) {
    IsTrimmed(s) && 0 < |s| < MaxSuggestionLength && SuggestionSeparator !in s
  }

  /** `.map(s => s.trim())`. */
  function TrimAll(fields: seq<string>): (r: seq<string>)
    ensures |r| == |fields|
    ensures forall i :: 0 <= i < |r| ==> r[i] == Trim(fields[i])
  {
    seq(|fields|, i requires 0 <= i < |fields| => Trim(fields[i]))
  }

  /** `.filter(s => s.length > 0 && s.length < 100)`. */
  function KeepShort(fields: seq<string>): (r: seq<string>)
    ensures |r| <= |fields|
    ensures forall i :: 0 <= i < |r| ==> 0 < |r[i]| < MaxSuggestionLength
    ensures forall i :: 0 <= i < |r| ==> r[i] in fields
  {
    if fields == [] then []
    else if 0 < |fields[0]| < MaxSuggestionLength then [fields[0]] + KeepShort(fields[1..])
    else KeepShort(fields[1..])
  }

  /** `.slice(0, 3)`. */
  function TakeSuggestions(xs: seq<string>): (r: seq<string>)
    ensures |r| == if |xs| <= MaxSuggestions then |xs| else MaxSuggestions
    ensures r <= xs
  {
    if |xs| <= MaxSuggestions then xs else xs[..MaxSuggestions]
  }

  /** Every field of length 1 to 99 survives the filter. */
  lemma {:induction false} KeepShortKeepsShort(fields: seq<string>)
    ensures forall i :: 0 <= i < |fields| && 0 < |fields[i]| < MaxSuggestionLength ==> fields[i] in KeepShort(fields)
  {
    if fields != [] {
      KeepShortKeepsShort(fields[1..]);
      assert forall i :: 1 <= i < |fields| ==> fields[i] == fields[1..][i - 1];
    }
  }

  /** The filter keeps a single field exactly when its length is 1 to 99. */
  lemma KeepShortSingle(x: string)
    ensures KeepShort([x]) == if 0 < |x| < MaxSuggestionLength then [x] else []
  {
    assert [x][1..] == [];
  }

  /** The filter works field by field, so the kept fields stay in their order. */
  lemma {:induction false} KeepShortAppend(xs: seq<string>, ys: seq<string>)
    ensures KeepShort(xs + ys) == KeepShort(xs) + KeepShort(ys)
  {
    if xs == [] {
      assert xs + ys == ys;
    } else {
      assert (xs + ys)[0] == xs[0];
      assert (xs + ys)[1..] == xs[1..] + ys;
      KeepShortAppend(xs[1..], ys);
    }
  }

  /** The suggestion pipeline applied to the trimmed text after the marker. */
  function Suggestions(text: string): (r: seq<string>)
    ensures |r| <= MaxSuggestions
    ensures forall i :: 0 <= i < |r| ==> CleanSuggestion(r[i])
  {
    var fields := Split(Trim(text), SuggestionSeparator);
    SplitFieldsExcludeSeparator(Trim(text), SuggestionSeparator);
    var trimmed := TrimAll(fields);
    assert forall i :: 0 <= i < |trimmed| ==> SuggestionSeparator !in trimmed[i] by {
      forall i | 0 <= i < |trimmed| ensures SuggestionSeparator !in trimmed[i] {
        TrimIsSlice(fields[i]);
      }
    }
    var kept := KeepShort(trimmed);
    TakeSuggestions(kept)
  }

  /** Whitespace in front of the first field does not change the trimmed fields. */
  lemma TrimAllLeadingSpace(g: seq<string>, f: seq<string>, p: string)
    requires AllSpace(p) && |g| == |f| >= 1
    requires g[0] == p + f[0] && g[1..] == f[1..]
    ensures TrimAll(g) == TrimAll(f)
  {
    TrimIgnoresSpace(p, f[0], []);
    assert p + f[0] + [] == g[0];
    assert forall i :: 1 <= i < |g| ==> g[i] == g[1..][i - 1];
  }

  /** Whitespace after the last field does not change the trimmed fields. */
  lemma TrimAllTrailingSpace(g: seq<string>, f: seq<string>, q: string)
    requires AllSpace(q) && |g| == |f| >= 1
    requires g[|g| - 1] == f[|f| - 1] + q && g[..|g| - 1] == f[..|f| - 1]
    ensures TrimAll(g) == TrimAll(f)
  {
    TrimIgnoresSpace([], f[|f| - 1], q);
    assert [] + f[|f| - 1] + q == g[|g| - 1];
    assert forall i :: 0 <= i < |g| - 1 ==> g[i] == g[..|g| - 1][i];
  }

  /** The separator is not whitespace. */
  lemma SeparatorNotInSpace(p: string)
    requires AllSpace(p)
    ensures SuggestionSeparator !in p
  {
  }

  /** Leading whitespace does not change a text's trimmed pipe-fields. */
  lemma TrimmedFieldsIgnoreLeadingSpace(p: string, m: string)
    requires AllSpace(p)
    ensures TrimAll(Split(p + m, SuggestionSeparator)) == TrimAll(Split(m, SuggestionSeparator))
  {
    SeparatorNotInSpace(p);
    SplitPrefix(p, m, SuggestionSeparator);
    TrimAllLeadingSpace(Split(p + m, SuggestionSeparator), Split(m, SuggestionSeparator), p);
  }

  /** Trailing whitespace does not change a text's trimmed pipe-fields. */
  lemma TrimmedFieldsIgnoreTrailingSpace(m: string, q: string)
    requires AllSpace(q)
    ensures TrimAll(Split(m + q, SuggestionSeparator)) == TrimAll(Split(m, SuggestionSeparator))
  {
    SeparatorNotInSpace(q);
    SplitSuffix(m, q, SuggestionSeparator);
    TrimAllTrailingSpace(Split(m + q, SuggestionSeparator), Split(m, SuggestionSeparator), q);
  }

  /**
   * The outer `trim` does not matter: the suggestions are the first three of the
   * pipe-separated fields of the text, each trimmed, that have 1 to 99 characters.
   */
  lemma SuggestionsOfFields(text: string)
    ensures Suggestions(text) == TakeSuggestions(KeepShort(TrimAll(Split(text, SuggestionSeparator))))
  {
    var k := LeadingSpaces(text);
    var m := Trim(text);
    var p := text[..k];
    var q := text[k + |m|..];
    assert text == p + (m + q);
    TrimmedFieldsIgnoreLeadingSpace(p, m + q);
    TrimmedFieldsIgnoreTrailingSpace(m, q);
  }

  /** Pipe-free fields joined with '|' give the first three of those fields that are short once trimmed. */
  lemma SuggestionsOfJoinedFields(fields: seq<string>)
    requires |fields| >= 1
    requires forall i :: 0 <= i < |fields| ==> SuggestionSeparator !in fields[i]
    ensures Suggestions(Join(fields, SuggestionSeparator)) == TakeSuggestions(KeepShort(TrimAll(fields)))
  {
    SplitJoin(fields, SuggestionSeparator);
    SuggestionsOfFields(Join(fields, SuggestionSeparator));
  }

  /** Clean fields are their own trimmed forms. */
  lemma TrimAllClean(fields: seq<string>)
    requires forall i :: 0 <= i < |fields| ==> CleanSuggestion(fields[i])
    ensures TrimAll(fields) == fields
  {
    forall i | 0 <= i < |fields| ensures Trim(fields[i]) == fields[i] {
      TrimOfTrimmed(fields[i]);
    }
  }

  /** With more clean fields than the limit, the first three are the suggestions (as "a|b|c|d" gives a, b, c). */
  lemma FirstThreeSuggestions(fields: seq<string>)
    requires |fields| > MaxSuggestions
    requires forall i :: 0 <= i < |fields| ==> CleanSuggestion(fields[i])
    ensures Suggestions(Join(fields, SuggestionSeparator)) == fields[..MaxSuggestions]
  {
    SuggestionsOfJoinedFields(fields);
    TrimAllClean(fields);
    KeepShortAll(fields);
  }

  /** An empty field between two pipes is skipped (as "a||b" gives a, b). */
  lemma EmptyFieldSkipped(a: string, b: string)
    requires CleanSuggestion(a) && CleanSuggestion(b)
    ensures Suggestions(Join([a, "", b], SuggestionSeparator)) == [a, b]
  {
    SuggestionsOfJoinedFields([a, "", b]);
    TrimmedFieldsSkipEmpty(a, b);
  }

  /** The filtered, trimmed fields of `a`, "" and `b`. */
  lemma TrimmedFieldsSkipEmpty(a: string, b: string)
    requires CleanSuggestion(a) && CleanSuggestion(b)
    ensures KeepShort(TrimAll([a, "", b])) == [a, b]
  {
    TrimAllClean3(a, b);
    KeepShortSkipsEmpty(a, "", b);
  }

  lemma KeepShortSkipsEmpty(a: string, e: string, b: string)
    requires 0 < |a| < MaxSuggestionLength && 0 < |b| < MaxSuggestionLength && e == []
    ensures KeepShort([a, e, b]) == [a, b]
  {
    assert [b][1..] == [];
    assert KeepShort([b]) == [b];
    assert [e, b][1..] == [b];
    assert KeepShort([e, b]) == [b];
    assert [a, e, b][1..] == [e, b];
  }

  lemma TrimAllClean3(a: string, b: string)
    requires CleanSuggestion(a) && CleanSuggestion(b)
    ensures TrimAll([a, "", b]) == [a, "", b]
  {
    var fields := [a, "", b];
    TrimOfTrimmed(a);
    TrimOfTrimmed(b);
    assert Trim("") == "";
    assert TrimAll(fields)[0] == a && TrimAll(fields)[1] == "" && TrimAll(fields)[2] == b;
  }

  /** Trimming only removes characters. */
  lemma TrimIsSlice(s: string)
    ensures forall c :: c in Trim(s) ==> c in s
  {
    var k := LeadingSpaces(s);
    var r := Trim(s);
    forall c | c in r ensures c in s {
      var i :| 0 <= i < |r| && r[i] == c;
      assert s[k + i] == c;
    }
  }

  /** The second `split` part: the text after the first marker, up to a second marker if any. */
  function SecondPart(raw: string, k: nat): (r: string)
    requires k + |Marker| <= |raw|
    ensures !Contains(r, Marker) || IndexOf(raw[k + |Marker|..], Marker).None?
  {
    var after := raw[k + |Marker|..];
    match IndexOf(after, Marker)
    case None => after
    case Some(k2) => NoMarkerBeforeFirst(after, k2); after[..k2]
  }

  /** A proper prefix ending before the first occurrence does not contain the pattern. */
  lemma NoMarkerBeforeFirst(s: string, k: nat)
    requires IndexOf(s, Marker) == Some(k)
    ensures !Contains(s[..k], Marker)
  {
    if Contains(s[..k], Marker) {
      var i := IndexOf(s[..k], Marker).value;
      assert s[..k][i..i + |Marker|] == s[i..i + |Marker|];
      assert OccursAt(s, Marker, i);
    }
  }

  /**
   * `parseFollowUpActions`: without the marker the reply is returned as it is;
   * with it, the text before the first marker, trimmed, and the suggestions of
   * the part that follows.
   */
  function ParseFollowUpActions(raw: string): (r: Parsed)
    ensures IndexOf(raw, Marker).None? ==> r == Parsed(raw, [])
    ensures IndexOf(raw, Marker).Some? ==> r.finalText == Trim(raw[..IndexOf(raw, Marker).value])
    ensures |r.suggestions| <= MaxSuggestions
    ensures forall i :: 0 <= i < |r.suggestions| ==> CleanSuggestion(r.suggestions[i])
  {
    match IndexOf(raw, Marker)
    case None => Parsed(raw, [])
    case Some(k) => Parsed(Trim(raw[..k]), Suggestions(SecondPart(raw, k)))
  }

  /** With the first marker at k and no second one, the suggestions come from everything after it. */
  lemma ParseAtMarker(raw: string, k: nat)
    requires IndexOf(raw, Marker) == Some(k)
    requires !Contains(raw[k + |Marker|..], Marker)
    ensures ParseFollowUpActions(raw) == Parsed(Trim(raw[..k]), Suggestions(raw[k + |Marker|..]))
  {
    assert SecondPart(raw, k) == raw[k + |Marker|..];
  }

  /**
   * Whatever follows the marker: the suggestions are the first three of its
   * pipe-fields (up to a second marker) that are 1 to 99 characters once trimmed.
   */
  lemma ParsedSuggestions(raw: string, k: nat)
    requires IndexOf(raw, Marker) == Some(k)
    ensures ParseFollowUpActions(raw).suggestions
         == TakeSuggestions(KeepShort(TrimAll(Split(SecondPart(raw, k), SuggestionSeparator))))
  {
    SuggestionsOfFields(SecondPart(raw, k));
  }

  /** Appending to a reply whose first marker ends it keeps that marker first. */
  lemma FirstMarkerKept(text: string, rest: string)
    requires IndexOf(text + Marker, Marker) == Some(|text|)
    ensures IndexOf(text + Marker + rest, Marker) == Some(|text|)
    ensures (text + Marker + rest)[..|text|] == text
    ensures (text + Marker + rest)[|text| + |Marker|..] == rest
  {
    IndexOfExtend(text + Marker, rest, Marker);
  }

  /** Once a second marker is present, anything appended to the reply is ignored. */
  lemma TextAfterSecondMarkerIgnored(raw: string, tail: string)
    requires IndexOf(raw, Marker).Some?
    requires IndexOf(raw[IndexOf(raw, Marker).value + |Marker|..], Marker).Some?
    ensures ParseFollowUpActions(raw + tail) == ParseFollowUpActions(raw)
  {
    var k := IndexOf(raw, Marker).value;
    IndexOfExtend(raw, tail, Marker);
    var after := raw[k + |Marker|..];
    assert (raw + tail)[k + |Marker|..] == after + tail;
    IndexOfExtend(after, tail, Marker);
    var k2 := IndexOf(after, Marker).value;
    assert (after + tail)[..k2] == after[..k2];
    assert (raw + tail)[..k] == raw[..k];
  }

  /** Joining clean suggestions gives a string that is already trimmed. */
  lemma {:induction false} JoinClean(fields: seq<string>)
    requires |fields| >= 1
    requires forall i :: 0 <= i < |fields| ==> CleanSuggestion(fields[i])
    ensures IsTrimmed(Join(fields, SuggestionSeparator))
    ensures |Join(fields, SuggestionSeparator)| >= |fields[0]|
  {
    if |fields| > 1 {
      JoinClean(fields[1..]);
      var rest := Join(fields[1..], SuggestionSeparator);
      var j := fields[0] + [SuggestionSeparator] + rest;
      assert j[|j| - 1] == rest[|rest| - 1];
      assert j[0] == fields[0][0];
    }
  }

  lemma {:induction false} KeepShortAll(fields: seq<string>)
    requires forall i :: 0 <= i < |fields| ==> 0 < |fields[i]| < MaxSuggestionLength
    ensures KeepShort(fields) == fields
  {
    if fields != [] {
      KeepShortAll(fields[1..]);
      assert [fields[0]] + fields[1..] == fields;
    }
  }

  /** Clean suggestions joined with '|' are their own suggestion list. */
  lemma SuggestionsOfJoin(fields: seq<string>)
    requires 1 <= |fields| <= MaxSuggestions
    requires forall i :: 0 <= i < |fields| ==> CleanSuggestion(fields[i])
    ensures Suggestions(Join(fields, SuggestionSeparator)) == fields
  {
    var joined := Join(fields, SuggestionSeparator);
    JoinClean(fields);
    TrimOfTrimmed(joined);
    SplitJoin(fields, SuggestionSeparator);
    assert TrimAll(fields) == fields by {
      forall i | 0 <= i < |fields| ensures Trim(fields[i]) == fields[i] {
        TrimOfTrimmed(fields[i]);
      }
    }
    KeepShortAll(fields);
  }

  /**
   * Round trip: up to three clean suggestions written after the marker, joined
   * with '|', parse back to themselves, and the text before the marker comes
   * back trimmed.
   */
  lemma SuggestionsRoundTrip(text: string, fields: seq<string>)
    requires 1 <= |fields| <= MaxSuggestions
    requires forall i :: 0 <= i < |fields| ==> CleanSuggestion(fields[i])
    requires IndexOf(text + Marker, Marker) == Some(|text|)
    requires !Contains(Join(fields, SuggestionSeparator), Marker)
    ensures ParseFollowUpActions(text + Marker + Join(fields, SuggestionSeparator))
         == Parsed(Trim(text), fields)
  {
    var joined := Join(fields, SuggestionSeparator);
    FirstMarkerKept(text, joined);
    ParseAtMarker(text + Marker + joined, |text|);
    SuggestionsOfJoin(fields);
  }

  /** `getLanguageName`: the name for one of the nine mapped codes, English for any other code. */
  function GetLanguageName(code: string): (r: string)
    ensures r in LanguageNames
    ensures code !in LanguageCodes ==> r == "English"
  {
    match code
    case "en" => "English"
    case "hi" => "Hindi"
    case "ta" => "Tamil"
    case "te" => "Telugu"
    case "kn" => "Kannada"
    case "ml" => "Malayalam"
    case "bn" => "Bengali"
    case "mr" => "Marathi"
    case "gu" => "Gujarati"
    case _ => "English"
  }

  const LanguageCodes: set<string> := {"en", "hi", "ta", "te", "kn", "ml", "bn", "mr", "gu"}

  const LanguageNames: set<string> :=
    {"English", "Hindi", "Tamil", "Telugu", "Kannada", "Malayalam", "Bengali", "Marathi", "Gujarati"}

  /** English is returned exactly for "en" and for the unmapped codes. */
  lemma EnglishIsTheDefault(code: string)
    ensures GetLanguageName(code) == "English" <==> code == "en" || code !in LanguageCodes
  {
  }
}

=== FILE: kb_model.dfy ===
/**
 * The knowledgebase's configuration constants (`KB_CONFIG`) and its records:
 * a learned entry, the context it was learned in, and its provenance tag.
 * Timestamps are integers (milliseconds, as `Date.now()` returns them).
 */
module KbModel {

  const MaxEntries: nat := 500
  const MinConfidence: real := 0.7
  const MinQuestionLength: nat := 10
  const MinAnswerLength: nat := 20
  const MaxStorageSizeKB: real := 500.0
  const TokenizeMinLength: nat := 3
  const ContextWeight: real := 0.3
  const TokenMatchWeight: real := 0.7

  /** Token similarity above which `learn` treats a question as already known. */
  const DuplicateThreshold: real := 0.9

  /** Per-dimension weights of `contextMatch`. */
  const CountryWeight: real := 0.4
  const StateWeight: real := 0.4
  const SectorWeight: real := 0.2

  /** The entry state that matches every session state. */
  const AllStates: string := "All"

  /** The lower-cased answer fragments that mark a non-answer. */
  const ErrorIndicators: seq<string> := ["error", "not available", "cannot answer", "no information"]

  /** A user's or an entry's context; an empty string is JavaScript's falsy "not set". */
  datatype Context = Context(country: string, state: string, sector: string, intent: string)

  datatype Source = UserChat | AiResponse

  datatype Entry = Entry(
    id: string,
    question: string,
    questionTokens: seq<string>,
    answer: string,
    context: Context,
    usageCount: int,
    lastUsed: int,
    createdAt: int,
    source: Source)
}

=== FILE: knowledgebase.dfy ===
/**
 * The learned-answer cache (`KnowledgebaseService`) as a value: a store of
 * entries plus hit/miss statistics, with `findMatch`, `learn`, `clear`,
 * `removeEntry` and `importFromJSON` as functions from the old store to the
 * new one. The clock (`now`), the id generator (`freshId`) and the serialized
 * size of an entry list (`sizeKB`) are parameters.
 */
module Knowledgebase {
  import opened Options
  import opened Text
  import opened KbModel
  import opened Tokenizer
  import opened Similarity
  import opened Retention

  datatype Stats = Stats(totalEntries: nat, storageSizeKB: real, hits: nat, misses: nat)

  datatype Store = Store(entries: seq<Entry>, stats: Stats)

  /** `KnowledgebaseMatch`: the matched entry and its confidence. */
  datatype Match = Match(entry: Entry, confidence: real)

  datatype FindResult = FindResult(store: Store, found: Option<Match>)

  datatype LearnResult = LearnResult(store: Store, admitted: bool)

  datatype ImportResult = ImportResult(store: Store, count: nat)

  /** The size in KB of an entry list's JSON serialization. */
  type SizeKB = seq<Entry> -> real

  // ---------- Persistence and statistics ----------

  /** `saveToStorage`'s effect on the entries: above MaxStorageSizeKB they pass through cleanup. */
  function Save(es: seq<Entry>, sizeKB: SizeKB): (r: seq<Entry>)
    ensures multiset(r) <= multiset(es)
    ensures |r| == if sizeKB(es) > MaxStorageSizeKB then Min(|es|, MaxEntries) else |es|
    ensures |es| <= MaxEntries ==> multiset(r) == multiset(es)
    ensures sizeKB(es) <= MaxStorageSizeKB ==> r == es
    ensures sizeKB(es) > MaxStorageSizeKB ==> SortedByUsage(r)
  {
    if sizeKB(es) > MaxStorageSizeKB then
      CleanupSortedPermutation(es);
      CleanupEntries(es)
    else es
  }

  /** What saving drops is never ordered before what it keeps. */
  lemma SaveKeepsLeastUsed(es: seq<Entry>, sizeKB: SizeKB, x: Entry)
    requires x in Save(es, sizeKB)
    ensures forall y :: y in multiset(es) - multiset(Save(es, sizeKB)) ==> UsageLe(x, y)
  {
    if sizeKB(es) > MaxStorageSizeKB {
      forall y | y in multiset(es) - multiset(Save(es, sizeKB)) ensures UsageLe(x, y) {
        CleanupKeepsLeastUsed(es, x, y);
      }
    }
  }

  /** `Math.round(x * 100) / 100`, where `Math.round(y)` is the floor of y + 0.5. */
  function RoundHundredths(x: real): (r: real)
    ensures x - 0.005 < r <= x + 0.005
    ensures (r * 100.0).Floor as real == r * 100.0
  {
    ((x * 100.0 + 0.5).Floor as real) / 100.0
  }

  /** `updateStats`: the entry count and rounded size are recomputed; hits and misses are kept. */
  function RefreshStats(es: seq<Entry>, stats: Stats, sizeKB: SizeKB): (r: Stats)
    ensures r.totalEntries == |es|
    ensures sizeKB(es) - 0.005 < r.storageSizeKB <= sizeKB(es) + 0.005
    ensures (r.storageSizeKB * 100.0).Floor as real == r.storageSizeKB * 100.0
    ensures r.hits == stats.hits && r.misses == stats.misses
  {
    Stats(|es|, RoundHundredths(sizeKB(es)), stats.hits, stats.misses)
  }

  // ---------- Lookup ----------

  /** `updateEntryUsage`: every entry with the id is counted once more and stamped with now. */
  function MarkUsed(es: seq<Entry>, id: string, now: int): (r: seq<Entry>)
    ensures |r| == |es|
    ensures forall i :: 0 <= i < |r| && es[i].id != id ==> r[i] == es[i]
    ensures forall i :: 0 <= i < |r| && es[i].id == id ==>
      r[i].usageCount == es[i].usageCount + 1 && r[i].lastUsed == now
      && r[i].(usageCount := es[i].usageCount, lastUsed := es[i].lastUsed) == es[i]
  {
    seq(|es|, i requires 0 <= i < |es| =>
      if es[i].id == id then es[i].(usageCount := es[i].usageCount + 1, lastUsed := now) else es[i])
  }

  /** The confidence of every entry for a query, in list order. */
  function Scores(query: seq<string>, session: Context, es: seq<Entry>): (r: seq<real>)
    ensures |r| == |es|
    ensures forall j :: 0 <= j < |es| ==> r[j] == Confidence(query, session, es[j])
  {
    seq(|es|, j requires 0 <= j < |es| => Confidence(query, session, es[j]))
  }

  /** No score among the first i reaches MinConfidence. */
  predicate NoneAbove(xs: seq<real>, i: nat)
    requires i <= |xs|
  {
    forall j :: 0 <= j < i ==> xs[j] < MinConfidence
  }

  /** Among the first i scores, k reaches MinConfidence, is maximal, and is the first maximum. */
  predicate FirstMaxAbove(xs: seq<real>, i: nat, k: nat)
    requires i <= |xs|
  {
    k < i && xs[k] >= MinConfidence
    && (forall j :: 0 <= j < i ==> xs[j] <= xs[k])
    && (forall j :: 0 <= j < k ==> xs[j] < xs[k])
  }

  /** What `bestMatch` holds after the loop of `findMatch` has seen the first i entries. */
  predicate ScanState(xs: seq<real>, i: nat, best: Option<nat>)
    requires i <= |xs|
  {
    match best
    case None => NoneAbove(xs, i)
    case Some(k) => FirstMaxAbove(xs, i, k)
  }

  /** The loop of `findMatch`: a score replaces the best so far only if it reaches MinConfidence and is strictly larger. */
  function ScanFrom(xs: seq<real>, i: nat, best: Option<nat>): (r: Option<nat>)
    requires i <= |xs| && ScanState(xs, i, best)
    ensures ScanState(xs, |xs|, r)
    decreases |xs| - i
  {
    if i == |xs| then best
    else
      var next :=
        if xs[i] >= MinConfidence && (best.None? || xs[i] > xs[best.value]) then Some(i) else best;
      ScanFrom(xs, i + 1, next)
  }

  function BestIndex(xs: seq<real>): (r: Option<nat>)
    ensures ScanState(xs, |xs|, r)
  {
    ScanFrom(xs, 0, None)
  }

  /** The best index is determined: at most one index is the first maximum above the threshold. */
  lemma FirstMaxUnique(xs: seq<real>, k1: nat, k2: nat)
    requires FirstMaxAbove(xs, |xs|, k1) && FirstMaxAbove(xs, |xs|, k2)
    ensures k1 == k2
  {
  }

  /** There is a best index exactly when some score reaches MinConfidence. */
  lemma BestIndexSomeIff(xs: seq<real>)
    ensures BestIndex(xs).Some? <==> exists j :: 0 <= j < |xs| && xs[j] >= MinConfidence
  {
    var r := BestIndex(xs);
    if r.Some? {
      assert xs[r.value] >= MinConfidence;
    }
  }

  /**
   * `findMatch`. An empty store counts a miss; a query without tokens returns
   * nothing and counts nothing; otherwise the best entry (if any) is returned
   * as it was before its usage is updated, and a hit or a miss is counted.
   */
  function FindMatch(s: Store, question: string, session: Context, now: int, sizeKB: SizeKB): (r: FindResult)
    ensures |s.entries| == 0 ==> r == FindResult(s.(stats := s.stats.(misses := s.stats.misses + 1)), None)
    ensures |s.entries| > 0 && Tokenize(question) == [] ==> r == FindResult(s, None)
    ensures r.found.None? ==> r.store.entries == s.entries && r.store.stats.hits == s.stats.hits
    ensures r.found.Some? ==> r.store.stats == s.stats.(hits := s.stats.hits + 1)
  {
    if |s.entries| == 0 then
      FindResult(s.(stats := s.stats.(misses := s.stats.misses + 1)), None)
    else
      var query := Tokenize(question);
      if |query| == 0 then FindResult(s, None)
      else
        match BestIndex(Scores(query, session, s.entries))
        case None =>
          FindResult(s.(stats := s.stats.(misses := s.stats.misses + 1)), None)
        case Some(k) =>
          var e := s.entries[k];
          var entries := Save(MarkUsed(s.entries, e.id, now), sizeKB);
          FindResult(Store(entries, s.stats.(hits := s.stats.hits + 1)), Some(Match(e, Confidence(query, session, e))))
  }

  /** A lookup with tokens finds an entry exactly when some entry reaches the confidence threshold. */
  lemma FindMatchHitIff(s: Store, question: string, session: Context, now: int, sizeKB: SizeKB)
    requires Tokenize(question) != []
    ensures FindMatch(s, question, session, now, sizeKB).found.Some?
        <==> exists j :: 0 <= j < |s.entries| && Confidence(Tokenize(question), session, s.entries[j]) >= MinConfidence
  {
    var xs := Scores(Tokenize(question), session, s.entries);
    BestIndexSomeIff(xs);
    if exists j :: 0 <= j < |s.entries| && Confidence(Tokenize(question), session, s.entries[j]) >= MinConfidence {
      var j :| 0 <= j < |s.entries| && Confidence(Tokenize(question), session, s.entries[j]) >= MinConfidence;
      assert xs[j] >= MinConfidence;
    }
  }

  /**
   * The entry found is the first in list order with maximal confidence, and
   * the confidence reported is its score.
   */
  lemma FindMatchIsFirstBest(s: Store, question: string, session: Context, now: int, sizeKB: SizeKB)
    requires FindMatch(s, question, session, now, sizeKB).found.Some?
    ensures var m := FindMatch(s, question, session, now, sizeKB).found.value;
      var query := Tokenize(question);
      exists k :: 0 <= k < |s.entries| && s.entries[k] == m.entry
        && m.confidence == Confidence(query, session, s.entries[k]) >= MinConfidence
        && (forall j :: 0 <= j < |s.entries| ==> Confidence(query, session, s.entries[j]) <= m.confidence)
        && (forall j :: 0 <= j < k ==> Confidence(query, session, s.entries[j]) < m.confidence)
  {
    var query := Tokenize(question);
    var xs := Scores(query, session, s.entries);
    var k := BestIndex(xs).value;
    assert FirstMaxAbove(xs, |xs|, k);
  }

  /**
   * A hit updates only the entries carrying the matched id, then saves; a miss
   * leaves the entries alone and counts one miss.
   */
  lemma FindMatchEffects(s: Store, question: string, session: Context, now: int, sizeKB: SizeKB)
    requires |s.entries| > 0 && Tokenize(question) != []
    ensures var r := FindMatch(s, question, session, now, sizeKB);
      r.found.Some? ==> r.store.entries == Save(MarkUsed(s.entries, r.found.value.entry.id, now), sizeKB)
    ensures var r := FindMatch(s, question, session, now, sizeKB);
      r.found.None? ==> r.store == s.(stats := s.stats.(misses := s.stats.misses + 1))
  {
  }

  /** Every lookup counts exactly one hit or miss, except a query without tokens against a non-empty store. */
  lemma FindMatchCountsOnce(s: Store, question: string, session: Context, now: int, sizeKB: SizeKB)
    ensures var r := FindMatch(s, question, session, now, sizeKB);
      r.store.stats.hits + r.store.stats.misses
      == s.stats.hits + s.stats.misses + (if |s.entries| > 0 && Tokenize(question) == [] then 0 else 1)
  {
  }

  // ---------- Learning ----------

  /** The lower-cased answer contains one of the error indicators. */
  predicate IsErrorAnswer(cleanAnswer: string) {
    exists k :: 0 <= k < |ErrorIndicators| && Contains(Lower(cleanAnswer), ErrorIndicators[k])
  }

  /** Some existing entry's tokens are more than 90% similar to the question's. */
  predicate IsDuplicate(es: seq<Entry>, tokens: seq<string>) {
    exists i :: 0 <= i < |es| && Jaccard(tokens, es[i].questionTokens) > DuplicateThreshold
  }

  /** The gate of `learn`: length limits (inclusive), no error indicator, no near-duplicate. */
  predicate Learnable(es: seq<Entry>, question: string, answer: string) {
    |Trim(question)| >= MinQuestionLength
    && |Trim(answer)| >= MinAnswerLength
    && !IsErrorAnswer(Trim(answer))
    && !IsDuplicate(es, Tokenize(Trim(question)))
  }

  /** The entry `learn` creates: trimmed texts, unused, created and last used now. */
  function NewEntry(id: string, question: string, answer: string, context: Context, source: Source, now: int): (e: Entry)
    ensures e.question == Trim(question) && e.answer == Trim(answer)
    ensures e.questionTokens == Tokenize(Trim(question))
    ensures e.usageCount == 0 && e.lastUsed == now && e.createdAt == now
    ensures e.id == id && e.context == context && e.source == source
  {
    Entry(id, Trim(question), Tokenize(Trim(question)), Trim(answer),
          Context(context.country, context.state, context.sector, context.intent),
          0, now, now, source)
  }

  /** Prepends the entry and runs cleanup when the list then exceeds MaxEntries. */
  function Admit(es: seq<Entry>, e: Entry): (r: seq<Entry>)
    ensures |r| == Min(|es| + 1, MaxEntries)
    ensures multiset(r) <= multiset(es) + multiset{e}
    ensures |es| < MaxEntries ==> r == [e] + es
    ensures |es| >= MaxEntries ==> SortedByUsage(r)
  {
    var added := [e] + es;
    if |added| > MaxEntries then
      CleanupSortedPermutation(added);
      CleanupEntries(added)
    else added
  }

  /** At capacity the entries cleanup drops, the new one included, are never ordered before a kept one. */
  lemma AdmitKeepsLeastUsed(es: seq<Entry>, e: Entry, x: Entry)
    requires x in Admit(es, e)
    ensures forall y :: y in multiset([e] + es) - multiset(Admit(es, e)) ==> UsageLe(x, y)
  {
    if |es| >= MaxEntries {
      forall y | y in multiset([e] + es) - multiset(Admit(es, e)) ensures UsageLe(x, y) {
        CleanupKeepsLeastUsed([e] + es, x, y);
      }
    }
  }

  /**
   * `learn`. A rejected question leaves the store as it was; an admitted one is
   * prepended, the list is cleaned up if it exceeds MaxEntries, then saved and the
   * statistics refreshed.
   */
  function Learn(s: Store, question: string, answer: string, context: Context, source: Source,
                 now: int, freshId: string, sizeKB: SizeKB): (r: LearnResult)
    ensures r.admitted <==> Learnable(s.entries, question, answer)
    ensures !r.admitted ==> r.store == s
    ensures r.admitted ==> |r.store.entries| <= MaxEntries
    ensures r.admitted ==> multiset(r.store.entries)
                           <= multiset(s.entries) + multiset{NewEntry(freshId, question, answer, context, source, now)}
    ensures r.store.stats.hits == s.stats.hits && r.store.stats.misses == s.stats.misses
    ensures r.admitted ==> r.store.stats.totalEntries == |r.store.entries|
    ensures r.admitted ==> r.store.entries
                           == Save(Admit(s.entries, NewEntry(freshId, question, answer, context, source, now)), sizeKB)
  {
    var cleanQuestion := Trim(question);
    var cleanAnswer := Trim(answer);
    if |cleanQuestion| < MinQuestionLength then LearnResult(s, false)
    else if |cleanAnswer| < MinAnswerLength then LearnResult(s, false)
    else if IsErrorAnswer(cleanAnswer) then LearnResult(s, false)
    else
      var tokens := Tokenize(cleanQuestion);
      if IsDuplicate(s.entries, tokens) then LearnResult(s, false)
      else
        var e := NewEntry(freshId, question, answer, context, source, now);
        var entries := Save(Admit(s.entries, e), sizeKB);
        LearnResult(Store(entries, RefreshStats(entries, s.stats, sizeKB)), true)
  }

  /**
   * Learning evicts by usage order: every entry that the cleanup at capacity or
   * the size-triggered cleanup drops, the new entry included, orders at or after
   * every entry that stays.
   */
  lemma LearnKeepsLeastUsed(s: Store, question: string, answer: string, context: Context, source: Source,
                            now: int, freshId: string, sizeKB: SizeKB, x: Entry)
    requires Learnable(s.entries, question, answer)
    requires x in Learn(s, question, answer, context, source, now, freshId, sizeKB).store.entries
    ensures var e := NewEntry(freshId, question, answer, context, source, now);
      var kept := Learn(s, question, answer, context, source, now, freshId, sizeKB).store.entries;
      forall y :: y in multiset([e] + s.entries) - multiset(kept) ==> UsageLe(x, y)
  {
    var e := NewEntry(freshId, question, answer, context, source, now);
    var admitted := Admit(s.entries, e);
    var kept := Save(admitted, sizeKB);
    assert x in multiset(kept);
    assert x in admitted;
    AdmitKeepsLeastUsed(s.entries, e, x);
    SaveKeepsLeastUsed(admitted, sizeKB, x);
    forall y | y in multiset([e] + s.entries) - multiset(kept) ensures UsageLe(x, y) {
      assert y in multiset(admitted) - multiset(kept) || y in multiset([e] + s.entries) - multiset(admitted);
    }
  }

  /** With room and a small enough store, learning just prepends the new entry. */
  lemma LearnPrepends(s: Store, question: string, answer: string, context: Context, source: Source,
                      now: int, freshId: string, sizeKB: SizeKB)
    requires Learnable(s.entries, question, answer) && |s.entries| < MaxEntries
    requires sizeKB([NewEntry(freshId, question, answer, context, source, now)] + s.entries) <= MaxStorageSizeKB
    ensures Learn(s, question, answer, context, source, now, freshId, sizeKB).store.entries
         == [NewEntry(freshId, question, answer, context, source, now)] + s.entries
  {
  }

  /** A question without tokens is not rejected for that reason. */
  lemma TokenlessQuestionLearnable(es: seq<Entry>, question: string, answer: string)
    requires Tokenize(Trim(question)) == []
    requires |Trim(question)| >= MinQuestionLength && |Trim(answer)| >= MinAnswerLength
    requires !IsErrorAnswer(Trim(answer))
    ensures Learnable(es, question, answer)
  {
    assert forall i :: 0 <= i < |es| ==> Jaccard([], es[i].questionTokens) == 0.0;
  }

  /**
   * At capacity, when every stored entry is unused and older than now, the entry
   * just learned is the one cleanup evicts.
   */
  lemma LearnedEntryEvictedAtCapacity(s: Store, question: string, answer: string, context: Context,
                                      source: Source, now: int, freshId: string, sizeKB: SizeKB)
    requires |s.entries| >= MaxEntries
    requires forall i :: 0 <= i < |s.entries| ==> s.entries[i].usageCount == 0 && s.entries[i].lastUsed < now
    ensures var r := Learn(s, question, answer, context, source, now, freshId, sizeKB);
      NewEntry(freshId, question, answer, context, source, now) !in r.store.entries
  {
    var e := NewEntry(freshId, question, answer, context, source, now);
    var r := Learn(s, question, answer, context, source, now, freshId, sizeKB);
    if r.admitted {
      StrictMaximumEvicted(e, s.entries);
      var admitted := Admit(s.entries, e);
      assert e !in admitted;
      var saved := Save(admitted, sizeKB);
      assert e !in multiset(admitted);
      assert e !in multiset(saved);
    } else {
      assert forall i :: 0 <= i < |s.entries| ==> s.entries[i] != e;
    }
  }

  /** Prepended to at least MaxEntries entries that all order strictly before it, x is evicted. */
  lemma StrictMaximumEvicted(x: Entry, rest: seq<Entry>)
    requires |rest| >= MaxEntries
    requires forall i :: 0 <= i < |rest| ==> !UsageLe(x, rest[i])
    ensures x !in CleanupEntries([x] + rest)
  {
    var es := [x] + rest;
    var kept := CleanupEntries(es);
    assert forall i :: 0 <= i < |rest| ==> rest[i] != x;
    assert multiset(es)[x] == 1;
    var sorted := SortByUsage(es);
    var n := MaxEntries;
    assert kept == sorted[..n];
    assert sorted == kept + sorted[n..];
    assert multiset(es) == multiset(kept) + multiset(sorted[n..]);
    var y := sorted[n];
    assert y in multiset(sorted[n..]);
    assert y in multiset(es) - multiset(kept);
    if y in rest {
      // y was evicted, so every kept entry orders no later than y, unlike x.
      var k :| 0 <= k < |rest| && rest[k] == y;
      forall i | 0 <= i < |kept| ensures kept[i] != x {
        CleanupKeepsLeastUsed(es, kept[i], y);
      }
    } else {
      assert y == x;
    }
  }

  // ---------- Bulk operations ----------

  /** `clear`: no entries, statistics recomputed, hits and misses kept. */
  function Clear(s: Store, sizeKB: SizeKB): (r: Store)
    ensures r.entries == []
    ensures r.stats.totalEntries == 0
    ensures r.stats.hits == s.stats.hits && r.stats.misses == s.stats.misses
  {
    Store([], RefreshStats([], s.stats, sizeKB))
  }

  /** The `filter` of `removeEntry`. */
  function RemoveId(es: seq<Entry>, id: string): (r: seq<Entry>)
    ensures |r| <= |es|
    ensures forall i :: 0 <= i < |r| ==> r[i].id != id
  {
    if es == [] then []
    else if es[0].id != id then [es[0]] + RemoveId(es[1..], id)
    else RemoveId(es[1..], id)
  }

  /** Exactly the entries with the id are removed: every other entry keeps its multiplicity. */
  lemma {:induction false} RemoveIdCounts(es: seq<Entry>, id: string, e: Entry)
    ensures multiset(RemoveId(es, id))[e] == if e.id == id then 0 else multiset(es)[e]
  {
    if es != [] {
      RemoveIdCounts(es[1..], id, e);
      assert es == [es[0]] + es[1..];
      if e.id == id {
        assert forall i :: 0 <= i < |RemoveId(es, id)| ==> RemoveId(es, id)[i] != e;
      }
    } else {
      assert multiset(RemoveId(es, id)) == multiset{};
    }
  }

  /** Filtering distributes over concatenation, so the rest keep their order. */
  lemma {:induction false} RemoveIdAppend(a: seq<Entry>, b: seq<Entry>, id: string)
    ensures RemoveId(a + b, id) == RemoveId(a, id) + RemoveId(b, id)
  {
    if a == [] {
      assert a + b == b;
    } else {
      assert (a + b)[0] == a[0];
      assert (a + b)[1..] == a[1..] + b;
      RemoveIdAppend(a[1..], b, id);
    }
  }

  lemma {:induction false} RemoveIdAbsent(es: seq<Entry>, id: string)
    requires forall i :: 0 <= i < |es| ==> es[i].id != id
    ensures RemoveId(es, id) == es
  {
    if es != [] {
      RemoveIdAbsent(es[1..], id);
      assert es == [es[0]] + es[1..];
    }
  }

  /** Every element of a sub-multiset occurs in the larger sequence. */
  lemma SubMultisetMembers(a: seq<Entry>, b: seq<Entry>, i: nat)
    requires multiset(a) <= multiset(b) && i < |a|
    ensures a[i] in b
  {
    assert a[i] in multiset(a);
  }

  /** `removeEntry`: drop every entry with the id, save, refresh the statistics. */
  function RemoveEntry(s: Store, id: string, sizeKB: SizeKB): (r: Store)
    ensures forall i :: 0 <= i < |r.entries| ==> r.entries[i].id != id
    ensures sizeKB(RemoveId(s.entries, id)) <= MaxStorageSizeKB ==> r.entries == RemoveId(s.entries, id)
    ensures |r.entries| <= |s.entries|
    ensures r.entries == Save(RemoveId(s.entries, id), sizeKB)
    ensures multiset(r.entries) <= multiset(RemoveId(s.entries, id))
    ensures |RemoveId(s.entries, id)| <= MaxEntries ==> multiset(r.entries) == multiset(RemoveId(s.entries, id))
    ensures sizeKB(RemoveId(s.entries, id)) > MaxStorageSizeKB ==> SortedByUsage(r.entries)
    ensures r.stats.totalEntries == |r.entries|
    ensures r.stats.hits == s.stats.hits && r.stats.misses == s.stats.misses
  {
    var filtered := RemoveId(s.entries, id);
    var entries := Save(filtered, sizeKB);
    assert forall i | 0 <= i < |entries| :: entries[i].id != id by {
      forall i | 0 <= i < |entries| ensures entries[i].id != id {
        SubMultisetMembers(entries, filtered, i);
      }
    }
    Store(entries, RefreshStats(entries, s.stats, sizeKB))
  }

  /** What removal's save drops is never ordered before what it keeps. */
  lemma RemoveEntryKeepsLeastUsed(s: Store, id: string, sizeKB: SizeKB, x: Entry)
    requires x in RemoveEntry(s, id, sizeKB).entries
    ensures forall y :: y in multiset(RemoveId(s.entries, id)) - multiset(RemoveEntry(s, id, sizeKB).entries)
                        ==> UsageLe(x, y)
  {
    SaveKeepsLeastUsed(RemoveId(s.entries, id), sizeKB, x);
  }

  /** A parsed record of `importFromJSON`; `hasTokens` says the record carries a token list. */
  datatype Record = Record(fields: Entry, hasTokens: bool)

  /** The truthiness filter of `importFromJSON`: non-empty question and answer, tokens present. */
  predicate ValidRecord(rec: Record) {
    rec.fields.question != "" && rec.fields.answer != "" && rec.hasTokens
  }

  function Ids(es: seq<Entry>): set<string> {
    set e | e in es :: e.id
  }

  /** The valid records whose id is not among `existing`, in input order; ids are not deduplicated within the batch. */
  function NewRecords(recs: seq<Record>, existing: set<string>): (r: seq<Entry>)
    ensures |r| <= |recs|
    ensures forall i :: 0 <= i < |r| ==> r[i].id !in existing
  {
    if recs == [] then []
    else if ValidRecord(recs[0]) && recs[0].fields.id !in existing then
      [recs[0].fields] + NewRecords(recs[1..], existing)
    else NewRecords(recs[1..], existing)
  }

  /** A record is imported exactly when it is valid and its id is new. */
  lemma {:induction false} NewRecordsMembers(recs: seq<Record>, existing: set<string>, rec: Record)
    requires rec in recs
    ensures rec.fields in NewRecords(recs, existing) <== ValidRecord(rec) && rec.fields.id !in existing
  {
    if recs[0] != rec {
      NewRecordsMembers(recs[1..], existing, rec);
    }
  }

  lemma {:induction false} NewRecordsSources(recs: seq<Record>, existing: set<string>, e: Entry)
    requires e in NewRecords(recs, existing)
    ensures exists i :: 0 <= i < |recs| && recs[i].fields == e && ValidRecord(recs[i]) && e.id !in existing
  {
    if !(ValidRecord(recs[0]) && recs[0].fields.id !in existing && recs[0].fields == e) {
      if ValidRecord(recs[0]) && recs[0].fields.id !in existing {
        assert e in NewRecords(recs[1..], existing);
      }
      NewRecordsSources(recs[1..], existing, e);
      var i :| 0 <= i < |recs[1..]| && recs[1..][i].fields == e && ValidRecord(recs[1..][i]) && e.id !in existing;
      assert recs[i + 1] == recs[1..][i];
    }
  }

  /**
   * `importFromJSON` over the parse result: a failed parse imports nothing;
   * otherwise the new records are prepended and the list saved (so cleaned up
   * when it exceeds MaxStorageSizeKB), the statistics refreshed, and the number
   * of new records returned. No count cap applies below the size limit.
   */
  function ImportRecords(s: Store, parsed: Option<seq<Record>>, sizeKB: SizeKB): (r: ImportResult)
    ensures parsed.None? ==> r == ImportResult(s, 0)
    ensures parsed.Some? ==> r.count == |NewRecords(parsed.value, Ids(s.entries))|
    ensures parsed.Some? ==> r.store.entries == Save(NewRecords(parsed.value, Ids(s.entries)) + s.entries, sizeKB)
    ensures parsed.Some? && sizeKB(NewRecords(parsed.value, Ids(s.entries)) + s.entries) <= MaxStorageSizeKB
            ==> r.store.entries == NewRecords(parsed.value, Ids(s.entries)) + s.entries
    ensures parsed.Some? ==> multiset(r.store.entries) <= multiset(NewRecords(parsed.value, Ids(s.entries)) + s.entries)
    ensures parsed.Some? && sizeKB(NewRecords(parsed.value, Ids(s.entries)) + s.entries) > MaxStorageSizeKB
            ==> SortedByUsage(r.store.entries)
                && |r.store.entries| == Min(|NewRecords(parsed.value, Ids(s.entries))| + |s.entries|, MaxEntries)
    ensures parsed.Some? ==> r.store.stats.totalEntries == |r.store.entries|
    ensures r.store.stats.hits == s.stats.hits && r.store.stats.misses == s.stats.misses
  {
    match parsed
    case None => ImportResult(s, 0)
    case Some(recs) =>
      var imported := NewRecords(recs, Ids(s.entries));
      var entries := Save(imported + s.entries, sizeKB);
      ImportResult(Store(entries, RefreshStats(entries, s.stats, sizeKB)), |imported|)
  }

  /** Above the size limit import keeps the least used: every dropped entry orders at or after every kept one. */
  lemma ImportKeepsLeastUsed(s: Store, recs: seq<Record>, sizeKB: SizeKB, x: Entry)
    requires x in ImportRecords(s, Some(recs), sizeKB).store.entries
    ensures forall y :: y in multiset(NewRecords(recs, Ids(s.entries)) + s.entries)
                            - multiset(ImportRecords(s, Some(recs), sizeKB).store.entries)
                        ==> UsageLe(x, y)
  {
    SaveKeepsLeastUsed(NewRecords(recs, Ids(s.entries)) + s.entries, sizeKB, x);
  }

  /** Import applies no count cap: a full store can grow past MaxEntries. */
  lemma ImportExceedsCap(s: Store, rec: Record, sizeKB: SizeKB)
    requires |s.entries| == MaxEntries && ValidRecord(rec) && rec.fields.id !in Ids(s.entries)
    requires sizeKB([rec.fields] + s.entries) <= MaxStorageSizeKB
    ensures |ImportRecords(s, Some([rec]), sizeKB).store.entries| == MaxEntries + 1
  {
    var ids := Ids(s.entries);
    assert [rec][1..] == [];
    assert NewRecords([rec], ids) == [rec.fields] + NewRecords([], ids);
    assert NewRecords([rec], ids) + s.entries == [rec.fields] + s.entries;
    var r := ImportRecords(s, Some([rec]), sizeKB);
    assert r.store.entries == [rec.fields] + s.entries;
  }

  /** Two valid records sharing a new id are both imported. */
  lemma ImportKeepsBatchDuplicates(s: Store, a: Record, b: Record, sizeKB: SizeKB)
    requires ValidRecord(a) && ValidRecord(b) && a.fields.id == b.fields.id
    requires a.fields.id !in Ids(s.entries)
    ensures ImportRecords(s, Some([a, b]), sizeKB).count == 2
  {
    var ids := Ids(s.entries);
    assert [a, b][1..] == [b] && [b][1..] == [];
    assert NewRecords([b], ids) == [b.fields] + NewRecords([], ids);
    assert NewRecords([a, b], ids) == [a.fields] + NewRecords([b], ids);
  }

  // ---------- The store across operations ----------

  /** The operations a session applies to the store (import aside). */
  datatype Command =
    | Lookup(question: string, session: Context, now: int)
    | LearnAnswer(question: string, answer: string, context: Context, source: Source, now: int, freshId: string)
    | Remove(id: string)
    | ClearAll

  function Step(s: Store, c: Command, sizeKB: SizeKB): Store {
    match c
    case Lookup(q, session, now) => FindMatch(s, q, session, now, sizeKB).store
    case LearnAnswer(q, a, ctx, src, now, id) => Learn(s, q, a, ctx, src, now, id, sizeKB).store
    case Remove(id) => RemoveEntry(s, id, sizeKB)
    case ClearAll => Clear(s, sizeKB)
  }

  /** At most MaxEntries entries, and the entry count in the statistics is current. */
  predicate Consistent(s: Store) {
    |s.entries| <= MaxEntries && s.stats.totalEntries == |s.entries|
  }

  /** Every command keeps the store consistent, and hits and misses never decrease. */
  lemma StepKeepsConsistent(s: Store, c: Command, sizeKB: SizeKB)
    requires Consistent(s)
    ensures Consistent(Step(s, c, sizeKB))
    ensures Step(s, c, sizeKB).stats.hits >= s.stats.hits
    ensures Step(s, c, sizeKB).stats.misses >= s.stats.misses
  {
    if c.Lookup? {
      var r := FindMatch(s, c.question, c.session, c.now, sizeKB);
      if r.found.Some? {
        FindMatchEffects(s, c.question, c.session, c.now, sizeKB);
      }
    }
  }
}

=== FILE: options.dfy ===
/** The optional-value type shared by the modules of this model. */
module Options {

  /** A value that may be absent: JavaScript's `null`/`undefined` results. */
  datatype Option<+T> = None | Some(value: T)
}

=== FILE: retention.dfy ===
/**
 * `cleanupEntries`: a stable ascending sort by (usageCount, lastUsed),
 * truncated to the first MaxEntries entries. The entries it keeps are thus the
 * least used and, among equally used ones, the least recently used.
 */
module Retention {
  import opened KbModel

  /** The comparator of `cleanupEntries` as an order: usage count, then time of last use. */
  predicate UsageLe(a: Entry, b: Entry) {
    a.usageCount < b.usageCount || (a.usageCount == b.usageCount && a.lastUsed <= b.lastUsed)
  }

  predicate SortedByUsage(s: seq<Entry>) {
    forall i, j :: 0 <= i < j < |s| ==> UsageLe(s[i], s[j])
  }

  /** x is ordered no later than any element of s. */
  predicate AtMostAll(x: Entry, s: seq<Entry>) {
    forall i :: 0 <= i < |s| ==> UsageLe(x, s[i])
  }

  /** Inserts x before the first element it is ordered no later than. */
  function Insert(x: Entry, s: seq<Entry>): (r: seq<Entry>)
    ensures multiset(r) == multiset(s) + multiset{x}
    ensures |r| == |s| + 1
  {
    if s == [] || UsageLe(x, s[0]) then [x] + s
    else
      assert s == [s[0]] + s[1..];
      [s[0]] + Insert(x, s[1..])
  }

  /** The stable sort that `Array.prototype.sort` performs with the usage comparator. */
  function SortByUsage(s: seq<Entry>): (r: seq<Entry>)
    ensures multiset(r) == multiset(s)
    ensures |r| == |s|
  {
    if s == [] then []
    else
      assert s == [s[0]] + s[1..];
      Insert(s[0], SortByUsage(s[1..]))
  }

  /** The entries of s that carry the key (u, t), in their order in s. */
  function WithKey(s: seq<Entry>, u: int, t: int): (r: seq<Entry>)
    ensures forall i :: 0 <= i < |r| ==> r[i].usageCount == u && r[i].lastUsed == t
    ensures |r| <= |s|
  {
    if s == [] then []
    else if s[0].usageCount == u && s[0].lastUsed == t then [s[0]] + WithKey(s[1..], u, t)
    else WithKey(s[1..], u, t)
  }

  lemma {:induction false} InsertSorted(x: Entry, s: seq<Entry>)
    requires SortedByUsage(s)
    ensures SortedByUsage(Insert(x, s))
  {
    if s == [] || UsageLe(x, s[0]) {
      assert AtMostAll(x, s) by {
        forall i | 0 <= i < |s| ensures UsageLe(x, s[i]) {
          if i > 0 { assert UsageLe(s[0], s[i]); }
        }
      }
    } else {
      var rest := Insert(x, s[1..]);
      InsertSorted(x, s[1..]);
      forall y | y in multiset(rest) ensures UsageLe(s[0], y) {
        if y == x {
        } else {
          assert y in multiset(s[1..]);
          assert y in s[1..];
        }
      }
      forall j | 0 <= j < |rest| ensures UsageLe(s[0], rest[j]) {
        assert rest[j] in multiset(rest);
      }
      assert Insert(x, s) == [s[0]] + rest;
    }
  }

  lemma {:induction false} SortByUsageSorted(s: seq<Entry>)
    ensures SortedByUsage(SortByUsage(s))
  {
    if s != [] {
      SortByUsageSorted(s[1..]);
      InsertSorted(s[0], SortByUsage(s[1..]));
    }
  }

  /** Insert passes only entries ordered strictly before x, so it keeps each key's order. */
  lemma {:induction false} InsertWithKey(x: Entry, s: seq<Entry>, u: int, t: int)
    ensures WithKey(Insert(x, s), u, t)
         == (if x.usageCount == u && x.lastUsed == t then [x] else []) + WithKey(s, u, t)
  {
    if s == [] || UsageLe(x, s[0]) {
      assert Insert(x, s) == [x] + s;
      assert ([x] + s)[1..] == s;
    } else {
      InsertWithKey(x, s[1..], u, t);
      assert Insert(x, s)[1..] == Insert(x, s[1..]);
    }
  }

  /** Stability: entries that compare equal keep their relative order. */
  lemma {:induction false} SortByUsageStable(s: seq<Entry>, u: int, t: int)
    ensures WithKey(SortByUsage(s), u, t) == WithKey(s, u, t)
  {
    if s != [] {
      SortByUsageStable(s[1..], u, t);
      InsertWithKey(s[0], SortByUsage(s[1..]), u, t);
    }
  }

  function Min(a: int, b: int): int {
    if a <= b then a else b
  }

  /** `cleanupEntries`: the first MaxEntries entries of the usage sort. */
  function CleanupEntries(es: seq<Entry>): (r: seq<Entry>)
    ensures |r| == Min(|es|, MaxEntries)
    ensures multiset(r) <= multiset(es)
  {
    var sorted := SortByUsage(es);
    var n := Min(|sorted|, MaxEntries);
    assert sorted == sorted[..n] + sorted[n..];
    sorted[..n]
  }

  /**
   * Every kept entry is ordered no later than every evicted one: the survivors are
   * the least used, and the most used or most recently used are dropped.
   */
  lemma {:induction false} CleanupKeepsLeastUsed(es: seq<Entry>, x: Entry, y: Entry)
    requires x in CleanupEntries(es)
    requires y in multiset(es) - multiset(CleanupEntries(es))
    ensures UsageLe(x, y)
  {
    var sorted := SortByUsage(es);
    var n := Min(|sorted|, MaxEntries);
    var kept := sorted[..n];
    assert sorted == kept + sorted[n..];
    assert multiset(sorted) == multiset(kept) + multiset(sorted[n..]);
    assert y in multiset(sorted[n..]);
    assert y in sorted[n..];
    var j :| n <= j < |sorted| && sorted[j] == y;
    var i :| 0 <= i < n && kept[i] == x;
    SortByUsageSorted(es);
    assert UsageLe(sorted[i], sorted[j]);
  }

  /** The result is sorted, and within the cap nothing is evicted, only reordered. */
  lemma CleanupSortedPermutation(es: seq<Entry>)
    ensures SortedByUsage(CleanupEntries(es))
    ensures |es| <= MaxEntries ==> multiset(CleanupEntries(es)) == multiset(es)
  {
    SortByUsageSorted(es);
    var sorted := SortByUsage(es);
    var n := Min(|sorted|, MaxEntries);
    assert CleanupEntries(es) == sorted[..n];
    if |es| <= MaxEntries {
      assert sorted[..n] == sorted;
    }
    forall i, j | 0 <= i < j < n ensures UsageLe(sorted[..n][i], sorted[..n][j]) {
      assert sorted[..n][i] == sorted[i] && sorted[..n][j] == sorted[j];
    }
  }

  /** Cleanup re-sorts even when nothing is evicted, so list order is not preserved. */
  lemma CleanupReorders(a: Entry, b: Entry)
    requires a.usageCount > b.usageCount
    ensures CleanupEntries([a, b]) == [b, a]
  {
    assert [a, b][1..] == [b];
    assert SortByUsage([b]) == [b];
  }
}

=== FILE: similarity.dfy ===
/**
 * The scores `findMatch` combines: Jaccard similarity of token lists
 * (`calculateSimilarity`), the weighted context score (`contextMatch`), and
 * the confidence 0.7 * similarity + 0.3 * context score.
 */
module Similarity {
  import opened KbModel

  function TokenSet(ts: seq<string>): set<string> {
    set t | t in ts
  }

  /** `calculateSimilarity`: |A ∩ B| / |A ∪ B| over the token sets, 0 when either list is empty. */
  function Jaccard(a: seq<string>, b: seq<string>): (r: real)
    ensures 0.0 <= r <= 1.0
    ensures |a| == 0 || |b| == 0 ==> r == 0.0
    ensures r > 0.0 <==> TokenSet(a) * TokenSet(b) != {}
    ensures r == 1.0 <==> |a| > 0 && TokenSet(a) == TokenSet(b)
  {
    if |a| == 0 || |b| == 0 then
      assert TokenSet(a) * TokenSet(b) == {};
      assert |a| > 0 ==> a[0] in TokenSet(a) - TokenSet(b);
      0.0
    else
      var sa := TokenSet(a);
      var sb := TokenSet(b);
      assert a[0] in sa;
      SubsetCardinality(sa * sb, sa + sb);
      EqualOverlapMeansEqual(sa, sb);
      assert |sa * sb| > 0 <==> sa * sb != {} by {
        if sa * sb != {} { var t :| t in sa * sb; }
      }
      Ratio(|sa * sb|, |sa + sb|)
  }

  /** n / d for 0 <= n <= d and 0 < d. */
  function Ratio(n: nat, d: nat): (r: real)
    requires 0 < d && n <= d
    ensures 0.0 <= r <= 1.0
    ensures r > 0.0 <==> n > 0
    ensures r == 1.0 <==> n == d
  {
    (n as real) / (d as real)
  }

  /** A subset is no larger than its superset, and equally large only when equal. */
  lemma SubsetCardinality(x: set<string>, y: set<string>)
    requires x <= y
    ensures |x| <= |y|
    ensures |x| == |y| ==> x == y
  {
    assert y == x + (y - x);
    assert x * (y - x) == {};
    if |x| == |y| {
      assert |y - x| == 0;
    }
  }

  /** Intersection and union have the same size only for equal sets. */
  lemma EqualOverlapMeansEqual(x: set<string>, y: set<string>)
    ensures |x * y| == |x + y| <==> x == y
  {
    if x == y {
      assert x * y == x + y;
    }
    if |x * y| == |x + y| {
      SubsetCardinality(x * y, x + y);
      assert x <= x * y;
      assert y <= x * y;
    }
  }

  lemma JaccardSymmetric(a: seq<string>, b: seq<string>)
    ensures Jaccard(a, b) == Jaccard(b, a)
  {
    assert TokenSet(a) * TokenSet(b) == TokenSet(b) * TokenSet(a);
    assert TokenSet(a) + TokenSet(b) == TokenSet(b) + TokenSet(a);
  }

  /** JavaScript truthiness of a context field: set and non-empty. */
  predicate Comparable(entryField: string, sessionField: string) {
    entryField != "" && sessionField != ""
  }

  /** How many of country, state and sector are set on both sides (`total`). */
  function ComparableCount(entry: Context, session: Context): (n: nat)
    ensures n <= 3
  {
    (if Comparable(entry.country, session.country) then 1 else 0)
    + (if Comparable(entry.state, session.state) then 1 else 0)
    + (if Comparable(entry.sector, session.sector) then 1 else 0)
  }

  /** The weight of the comparable dimensions that match (`score`). */
  function MatchedWeight(entry: Context, session: Context): real {
    (if Comparable(entry.country, session.country) && entry.country == session.country
     then CountryWeight else 0.0)
    + (if Comparable(entry.state, session.state)
          && (entry.state == session.state || entry.state == AllStates)
       then StateWeight else 0.0)
    + (if Comparable(entry.sector, session.sector) && entry.sector == session.sector
       then SectorWeight else 0.0)
  }

  /**
   * `contextMatch`: the matched weight divided by the NUMBER of comparable
   * dimensions (not by their weights), so it never exceeds 0.4.
   */
  function ContextMatch(entry: Context, session: Context): (r: real)
    ensures 0.0 <= r <= CountryWeight
    ensures ComparableCount(entry, session) == 0 ==> r == 0.0
  {
    var total := ComparableCount(entry, session);
    var score := MatchedWeight(entry, session);
    if total > 0 then score / (total as real) else 0.0
  }

  /** A country set on both sides but different adds nothing: agreeing would add 0.4 / total. */
  lemma CountryMismatchAddsNothing(entry: Context, session: Context)
    requires Comparable(entry.country, session.country) && entry.country != session.country
    ensures ContextMatch(entry, session)
         == ContextMatch(entry, session.(country := entry.country)) - CountryWeight / ComparableCount(entry, session) as real
  {
  }

  /** A state set on both sides, different and not "All", adds nothing: agreeing would add 0.4 / total. */
  lemma StateMismatchAddsNothing(entry: Context, session: Context)
    requires Comparable(entry.state, session.state) && entry.state != session.state && entry.state != AllStates
    ensures ContextMatch(entry, session)
         == ContextMatch(entry, session.(state := entry.state)) - StateWeight / ComparableCount(entry, session) as real
  {
  }

  /** A sector set on both sides but different adds nothing: agreeing would add 0.2 / total. */
  lemma SectorMismatchAddsNothing(entry: Context, session: Context)
    requires Comparable(entry.sector, session.sector) && entry.sector != session.sector
    ensures ContextMatch(entry, session)
         == ContextMatch(entry, session.(sector := entry.sector)) - SectorWeight / ComparableCount(entry, session) as real
  {
  }

  /** Identical contexts with all three dimensions set score 1/3, not 1. */
  lemma IdenticalFullContextScoresOneThird(entry: Context, session: Context)
    requires entry.country != "" && entry.state != "" && entry.sector != ""
    requires entry.country == session.country && entry.state == session.state
    requires entry.sector == session.sector
    ensures ContextMatch(entry, session) == 1.0 / 3.0
  {
  }

  /** An entry learned for state "All" scores as if it had been learned for the session's state. */
  lemma EntryStateAllMatchesAnyState(entry: Context, session: Context)
    requires entry.state == AllStates && session.state != ""
    ensures ContextMatch(entry, session) == ContextMatch(entry.(state := session.state), session)
  {
  }

  /** ... but a session state of "All" matches only an entry state "All". */
  lemma SessionStateAllIsNotAWildcard()
    ensures ContextMatch(Context("", "All", "", ""), Context("", "Goa", "", "")) == StateWeight
    ensures ContextMatch(Context("", "Goa", "", ""), Context("", "All", "", "")) == 0.0
  {
  }

  /** `findMatch`'s combined confidence of an entry for the query tokens in a session context. */
  function Confidence(query: seq<string>, session: Context, e: Entry): (r: real)
    ensures 0.0 <= r <= TokenMatchWeight + ContextWeight * CountryWeight
  {
    Jaccard(query, e.questionTokens) * TokenMatchWeight + ContextMatch(e.context, session) * ContextWeight
  }

  /** Since the context score is at most 0.4, a hit needs token similarity of at least 29/35. */
  lemma HitNeedsTokenSimilarity(query: seq<string>, session: Context, e: Entry)
    requires Confidence(query, session, e) >= MinConfidence
    ensures Jaccard(query, e.questionTokens) >= 29.0 / 35.0
  {
  }

  /** An entry without tokens is never a hit. */
  lemma EmptyTokensNeverMatch(query: seq<string>, session: Context, e: Entry)
    requires e.questionTokens == []
    ensures Confidence(query, session, e) < MinConfidence
  {
  }

  /**
   * A query whose 4 tokens are among an entry's 7, in an identical fully set
   * context, scores 0.7 * 4/7 + 0.3 * 1/3 = 0.5: a miss.
   */
  lemma FourOfSevenTokensMiss(query: seq<string>, session: Context, e: Entry)
    requires TokenSet(query) <= TokenSet(e.questionTokens)
    requires |TokenSet(query)| == 4 && |TokenSet(e.questionTokens)| == 7
    requires e.context.country != "" && e.context.state != "" && e.context.sector != ""
    requires e.context.country == session.country && e.context.state == session.state
    requires e.context.sector == session.sector
    ensures Confidence(query, session, e) == 0.5
    ensures Confidence(query, session, e) < MinConfidence
  {
    var sq := TokenSet(query);
    var se := TokenSet(e.questionTokens);
    assert sq * se == sq;
    assert sq + se == se;
    IdenticalFullContextScoresOneThird(e.context, session);
    assert |query| == 0 ==> sq == {};
    assert |e.questionTokens| == 0 ==> se == {};
    assert Jaccard(query, e.questionTokens) == 4.0 / 7.0;
  }
}

=== FILE: text.dfy ===
/**
 * String primitives with the JavaScript semantics the services rely on:
 * the whitespace of `\s` and `String.prototype.trim`, ASCII lower-casing,
 * `split` on one character, and first-occurrence search (`indexOf`,
 * `includes`).
 */
module Text {
  import opened Options

  /** ECMAScript WhiteSpace and LineTerminator code points: what `\s` matches and `trim` strips. */
  predicate IsSpace(c: char) {
    || c == ' '
    || ('\t' <= c <= '\r')   // tab, line feed, vertical tab, form feed, carriage return
    || c == '\U{00A0}' || c == '\U{1680}'
    || ('\U{2000}' <= c <= '\U{200A}')
    || c == '\U{2028}' || c == '\U{2029}' || c == '\U{202F}' || c == '\U{205F}'
    || c == '\U{3000}' || c == '\U{FEFF}'
  }

  /** The regular-expression class `\w` (without the `u` flag): [A-Za-z0-9_]. */
  predicate IsWordChar(c: char) {
    ('a' <= c <= 'z') || ('A' <= c <= 'Z') || ('0' <= c <= '9') || c == '_'
  }

  /** `\w` after lower-casing: [a-z0-9_]. */
  predicate IsLowerWordChar(c: char) {
    ('a' <= c <= 'z') || ('0' <= c <= '9') || c == '_'
  }

  /** `toLowerCase` on one character, for the ASCII range. */
  function LowerChar(c: char): (r: char)
    ensures 'A' <= c <= 'Z' ==> 'a' <= r <= 'z' && r as int - 'a' as int == c as int - 'A' as int
    ensures !('A' <= c <= 'Z') ==> r == c
    ensures IsWordChar(c) ==> IsLowerWordChar(r)
    ensures IsWordChar(r) <==> IsWordChar(c)
    ensures IsSpace(r) <==> IsSpace(c)
  {
    if 'A' <= c <= 'Z' then (c as int + 32) as char else c
  }

  function Lower(s: string): (r: string)
    ensures |r| == |s|
  {
    seq(|s|, i requires 0 <= i < |s| => LowerChar(s[i]))
  }

  /** The index of the first non-whitespace character at or after `i`, or |s|. */
  function SkipSpaces(s: string, i: nat): (k: nat)
    requires i <= |s|
    ensures i <= k <= |s|
    ensures forall m | i <= m < k :: IsSpace(s[m])
    ensures k == |s| || !IsSpace(s[k])
    decreases |s| - i
  {
    if i < |s| && IsSpace(s[i]) then SkipSpaces(s, i + 1) else i
  }

  /** The index just past the last non-whitespace character of s[lo..j], or `lo`. */
  function SkipSpacesBack(s: string, lo: nat, j: nat): (k: nat)
    requires lo <= j <= |s|
    ensures lo <= k <= j
    ensures forall m | k <= m < j :: IsSpace(s[m])
    ensures k == lo || !IsSpace(s[k - 1])
  {
    if j > lo && IsSpace(s[j - 1]) then SkipSpacesBack(s, lo, j - 1) else j
  }

  /** The number of leading whitespace characters `trim` removes. */
  function LeadingSpaces(s: string): (k: nat)
    ensures k <= |s|
  {
    SkipSpaces(s, 0)
  }

  predicate IsTrimmed(s: string) {
    s == [] || (!IsSpace(s[0]) && !IsSpace(s[|s| - 1]))
  }

  /**
   * `String.prototype.trim`: the slice of `s` between its leading and its
   * trailing whitespace runs; it neither starts nor ends with whitespace.
   */
  function Trim(s: string): (r: string)
    ensures IsTrimmed(r)
    ensures LeadingSpaces(s) + |r| <= |s| && r == s[LeadingSpaces(s)..LeadingSpaces(s) + |r|]
    ensures forall m | 0 <= m < LeadingSpaces(s) :: IsSpace(s[m])
    ensures forall m | LeadingSpaces(s) + |r| <= m < |s| :: IsSpace(s[m])
  {
    var k := SkipSpaces(s, 0);
    var e := SkipSpacesBack(s, k, |s|);
    s[k..e]
  }

  /** Trimming a string without surrounding whitespace leaves it as it is. */
  lemma TrimOfTrimmed(s: string)
    requires IsTrimmed(s)
    ensures Trim(s) == s
  {
  }

  /** Every character is whitespace. */
  predicate AllSpace(s: string) {
    forall i | 0 <= i < |s| :: IsSpace(s[i])
  }

  /** `trim` is determined by its input: a trimmed core between two whitespace runs is what it returns. */
  lemma TrimUnique(a: string, m: string, b: string)
    requires AllSpace(a) && AllSpace(b) && IsTrimmed(m)
    ensures Trim(a + m + b) == m
  {
    var s := a + m + b;
    var t := Trim(s);
    var k := LeadingSpaces(s);
    assert forall i | 0 <= i < |a| :: s[i] == a[i];
    assert forall i | 0 <= i < |m| :: s[|a| + i] == m[i];
    assert forall i | 0 <= i < |b| :: s[|a| + |m| + i] == b[i];
    assert forall i | 0 <= i < |t| :: t[i] == s[k + i];
    if m == [] {
      assert forall i | 0 <= i < |s| :: IsSpace(s[i]);
      assert |t| == 0;
    } else {
      assert !IsSpace(s[|a|]) && !IsSpace(s[|a| + |m| - 1]);
      assert k == |a|;
      assert k + |t| == |a| + |m|;
      assert t == s[|a|..|a| + |m|];
    }
  }

  /** Whitespace added on either side does not change what `trim` returns. */
  lemma TrimIgnoresSpace(a: string, s: string, b: string)
    requires AllSpace(a) && AllSpace(b)
    ensures Trim(a + s + b) == Trim(s)
  {
    var k := LeadingSpaces(s);
    var t := Trim(s);
    var p := s[..k];
    var q := s[k + |t|..];
    TrimSurroundings(s);
    AllSpaceAppend(a, p);
    AllSpaceAppend(q, b);
    ConcatRegroup(a, p, t, q, b);
    TrimUnique(a + p, t, q + b);
  }

  /** A string is its leading whitespace, its trimmed form and its trailing whitespace. */
  lemma TrimSurroundings(s: string)
    ensures var k := LeadingSpaces(s); var t := Trim(s);
      s == s[..k] + t + s[k + |t|..] && AllSpace(s[..k]) && AllSpace(s[k + |t|..])
  {
  }

  lemma ConcatRegroup(a: string, p: string, t: string, q: string, b: string)
    ensures a + (p + t + q) + b == (a + p) + t + (q + b)
  {
  }

  lemma AllSpaceAppend(x: string, y: string)
    requires AllSpace(x) && AllSpace(y)
    ensures AllSpace(x + y)
  {
    assert forall i | |x| <= i < |x + y| :: (x + y)[i] == y[i - |x|];
  }

  /** `s.split(sep)` for a one-character separator: always at least one field. */
  function Split(s: string, sep: char): (r: seq<string>)
    ensures |r| >= 1
  {
    if s == [] then [[]]
    else
      var rest := Split(s[1..], sep);
      if s[0] == sep then [[]] + rest else [[s[0]] + rest[0]] + rest[1..]
  }

  /** No field of a split contains the separator. */
  lemma {:induction false} SplitFieldsExcludeSeparator(s: string, sep: char)
    ensures forall i | 0 <= i < |Split(s, sep)| :: sep !in Split(s, sep)[i]
  {
    if s != [] {
      SplitFieldsExcludeSeparator(s[1..], sep);
    }
  }

  /** Round trip: joining the fields of a split with the separator gives the string back. */
  lemma {:induction false} JoinSplit(s: string, sep: char)
    ensures Join(Split(s, sep), sep) == s
  {
    if s != [] {
      var rest := Split(s[1..], sep);
      JoinSplit(s[1..], sep);
      if s[0] == sep {
        assert ([[]] + rest)[1..] == rest;
      } else {
        JoinConsFirst(s[0], rest, sep);
      }
      assert [s[0]] + s[1..] == s;
    }
  }

  /** `fields.join(sep)`. */
  function Join(fields: seq<string>, sep: char): string
    requires |fields| >= 1
  {
    if |fields| == 1 then fields[0] else fields[0] + [sep] + Join(fields[1..], sep)
  }

  lemma JoinConsFirst(c: char, fields: seq<string>, sep: char)
    requires |fields| >= 1
    ensures Join([[c] + fields[0]] + fields[1..], sep) == [c] + Join(fields, sep)
  {
    var g := [[c] + fields[0]] + fields[1..];
    assert g[1..] == fields[1..];
  }

  /** One step of `Split` on a string with a known first character. */
  lemma SplitCons(c: char, t: string, sep: char)
    ensures Split([c] + t, sep) ==
      if c == sep then [[]] + Split(t, sep) else [[c] + Split(t, sep)[0]] + Split(t, sep)[1..]
  {
    assert ([c] + t)[0] == c;
    assert ([c] + t)[1..] == t;
  }

  /** Splitting at a separator occurrence splits the field list there. */
  lemma {:induction false} SplitAppend(a: string, sep: char, b: string)
    ensures Split(a + [sep] + b, sep) == Split(a, sep) + Split(b, sep)
  {
    if a == [] {
      assert a + [sep] + b == [sep] + b;
      SplitCons(sep, b, sep);
    } else {
      var c := a[0];
      var t := a[1..];
      SplitAppend(t, sep, b);
      SplitAppendStep(c, t, sep, b);
      assert a == [c] + t;
      assert a + [sep] + b == [c] + (t + [sep] + b);
    }
  }

  /** The inductive step of `SplitAppend`: prefixing a character to both sides. */
  lemma SplitAppendStep(c: char, t: string, sep: char, b: string)
    requires Split(t + [sep] + b, sep) == Split(t, sep) + Split(b, sep)
    ensures Split([c] + (t + [sep] + b), sep) == Split([c] + t, sep) + Split(b, sep)
  {
    SplitCons(c, t + [sep] + b, sep);
    SplitCons(c, t, sep);
    if c != sep {
      ExtendFirstField([c], Split(t, sep), Split(b, sep));
    }
  }

  lemma ExtendFirstField(f: string, xs: seq<string>, ys: seq<string>)
    requires |xs| >= 1
    ensures [f + (xs + ys)[0]] + (xs + ys)[1..] == ([f + xs[0]] + xs[1..]) + ys
  {
    assert (xs + ys)[0] == xs[0];
    assert (xs + ys)[1..] == xs[1..] + ys;
  }

  /** A string without the separator is one field. */
  lemma {:induction false} SplitNoSeparator(s: string, sep: char)
    requires sep !in s
    ensures Split(s, sep) == [s]
  {
    if s != [] {
      SplitNoSeparator(s[1..], sep);
      assert [s[0]] + s[1..] == s;
    }
  }

  /** A separator-free prefix becomes part of the first field. */
  lemma {:induction false} SplitPrefix(p: string, s: string, sep: char)
    requires sep !in p
    ensures Split(p + s, sep) == [p + Split(s, sep)[0]] + Split(s, sep)[1..]
  {
    if p == [] {
      assert p + s == s && p + Split(s, sep)[0] == Split(s, sep)[0];
    } else {
      SplitPrefix(p[1..], s, sep);
      assert p + s == [p[0]] + (p[1..] + s);
      SplitCons(p[0], p[1..] + s, sep);
      assert p + Split(s, sep)[0] == [p[0]] + (p[1..] + Split(s, sep)[0]);
    }
  }

  /** A separator-free suffix becomes part of the last field. */
  lemma {:induction false} SplitSuffix(s: string, q: string, sep: char)
    requires sep !in q
    ensures var f := Split(s, sep); Split(s + q, sep) == f[..|f| - 1] + [f[|f| - 1] + q]
  {
    if s == [] {
      SplitNoSeparator(q, sep);
      assert s + q == q;
    } else {
      SplitSuffix(s[1..], q, sep);
      SplitSuffixCons(s[0], s[1..], q, sep);
      assert s == [s[0]] + s[1..];
      assert s + q == [s[0]] + (s[1..] + q);
    }
  }

  /** `SplitSuffix` for a string with a known first character, given the claim for the rest. */
  lemma SplitSuffixCons(c: char, t: string, q: string, sep: char)
    requires var g := Split(t, sep); Split(t + q, sep) == g[..|g| - 1] + [g[|g| - 1] + q]
    ensures var f := Split([c] + t, sep); Split([c] + (t + q), sep) == f[..|f| - 1] + [f[|f| - 1] + q]
  {
    SplitCons(c, t + q, sep);
    SplitCons(c, t, sep);
    SplitSuffixStep(c, Split(t, sep), Split(t + q, sep), q, sep);
  }

  /** The inductive step of `SplitSuffix`, on the field lists alone. */
  lemma SplitSuffixStep(c: char, g: seq<string>, u: seq<string>, q: string, sep: char)
    requires |g| >= 1
    requires u == g[..|g| - 1] + [g[|g| - 1] + q]
    ensures var f := if c == sep then [[]] + g else [[c] + g[0]] + g[1..];
      var h := if c == sep then [[]] + u else [[c] + u[0]] + u[1..];
      h == f[..|f| - 1] + [f[|f| - 1] + q]
  {
    if c == sep {
      assert ([[]] + g)[..|g|] == [[]] + g[..|g| - 1];
    } else if |g| == 1 {
      assert u == [g[0] + q];
      assert [c] + (g[0] + q) == ([c] + g[0]) + q;
    } else {
      assert u[0] == g[0] && u[1..] == g[1..|g| - 1] + [g[|g| - 1] + q];
      var f := [[c] + g[0]] + g[1..];
      assert f[..|f| - 1] == [[c] + g[0]] + g[1..|g| - 1];
    }
  }

  /** Round trip: splitting a join of separator-free fields gives the fields back. */
  lemma {:induction false} SplitJoin(fields: seq<string>, sep: char)
    requires |fields| >= 1
    requires forall i | 0 <= i < |fields| :: sep !in fields[i]
    ensures Split(Join(fields, sep), sep) == fields
  {
    if |fields| == 1 {
      SplitNoSeparator(fields[0], sep);
    } else {
      SplitJoin(fields[1..], sep);
      SplitAppend(fields[0], sep, Join(fields[1..], sep));
      SplitNoSeparator(fields[0], sep);
      assert [fields[0]] + fields[1..] == fields;
    }
  }

  predicate OccursAt(s: string, pat: string, i: nat) {
    i + |pat| <= |s| && s[i..i + |pat|] == pat
  }

  /** The first index at or after `from` where `pat` occurs. */
  function IndexOfFrom(s: string, pat: string, from: nat): (r: Option<nat>)
    requires from <= |s|
    ensures r.Some? ==> (from <= r.value <= |s| && OccursAt(s, pat, r.value)
                         && forall i | from <= i < r.value :: !OccursAt(s, pat, i))
    ensures r.None? ==> forall i | from <= i <= |s| :: !OccursAt(s, pat, i)
    decreases |s| - from
  {
    if OccursAt(s, pat, from) then Some(from)
    else if from == |s| then None
    else IndexOfFrom(s, pat, from + 1)
  }

  /** `s.indexOf(pat)`, with `None` for -1. */
  function IndexOf(s: string, pat: string): (r: Option<nat>)
    ensures r.Some? ==> (r.value <= |s| && OccursAt(s, pat, r.value)
                         && forall i | 0 <= i < r.value :: !OccursAt(s, pat, i))
    ensures r.None? ==> forall i | 0 <= i <= |s| :: !OccursAt(s, pat, i)
  {
    IndexOfFrom(s, pat, 0)
  }

  /** `s.includes(pat)`. */
  predicate Contains(s: string, pat: string) {
    IndexOf(s, pat).Some?
  }

  /** The first occurrence in a prefix is the first occurrence in any extension of it. */
  lemma IndexOfExtend(s: string, t: string, pat: string)
    requires IndexOf(s, pat).Some?
    ensures IndexOf(s + t, pat) == IndexOf(s, pat)
  {
    var k := IndexOf(s, pat).value;
    assert (s + t)[k..k + |pat|] == s[k..k + |pat|];
    forall i | 0 <= i < k
      ensures !OccursAt(s + t, pat, i)
    {
      if OccursAt(s + t, pat, i) {
        assert (s + t)[i..i + |pat|] == s[i..i + |pat|];
        assert OccursAt(s, pat, i);
      }
    }
    assert OccursAt(s + t, pat, k);
  }
}

=== FILE: tokenizer.dfy ===
/**
 * The knowledgebase tokenizer (`tokenize`): lower-case, turn every character
 * outside `\w` and `\s` into a space, collapse whitespace runs, trim, split on
 * spaces, drop short tokens, drop repeated tokens keeping the first occurrence.
 */
module Tokenizer {
  import opened Text
  import opened KbModel

  /** `.replace(/[^\w\s]/g, ' ')`. */
  function ReplaceNonWord(s: string): (r: string)
    ensures |r| == |s|
  {
    seq(|s|, i requires 0 <= i < |s| => if IsWordChar(s[i]) || IsSpace(s[i]) then s[i] else ' ')
  }

  /**
   * `.replace(/\s+/g, ' ')`: a whitespace character followed by another one is
   * dropped and the last one of a run becomes a single space.
   */
  function CollapseSpaces(s: string): string {
    if s == [] then []
    else if !IsSpace(s[0]) then [s[0]] + CollapseSpaces(s[1..])
    else if |s| > 1 && IsSpace(s[1]) then CollapseSpaces(s[1..])
    else [' '] + CollapseSpaces(s[1..])
  }

  /** The normalized text that is split on spaces. */
  function Normalize(text: string): string {
    Trim(CollapseSpaces(ReplaceNonWord(Lower(text))))
  }

  /** `.filter(t => t.length >= TOKENIZE_MIN_LENGTH)`. */
  function KeepLong(fields: seq<string>): seq<string> {
    if fields == [] then []
    else (if |fields[0]| >= TokenizeMinLength then [fields[0]] else []) + KeepLong(fields[1..])
  }

  predicate NoDuplicates<T(==)>(xs: seq<T>) {
    forall i, j | 0 <= i < j < |xs| :: xs[i] != xs[j]
  }

  /** The position of the first occurrence of `x` in `xs`. */
  function FirstIndex<T(==)>(xs: seq<T>, x: T): (k: nat)
    requires x in xs
    ensures k < |xs| && xs[k] == x && x !in xs[..k]
  {
    if xs[0] == x then 0
    else
      var k := FirstIndex(xs[1..], x);
      assert xs[..k + 1] == [xs[0]] + xs[1..][..k];
      k + 1
  }

  /**
   * The `seen`-set filter: keeps an element exactly when it does not occur
   * earlier in the sequence.
   */
  function Dedup(xs: seq<string>): (r: seq<string>)
    ensures forall i | 0 <= i < |r| :: r[i] in xs
    ensures forall x | x in xs :: x in r
    ensures NoDuplicates(r)
  {
    if xs == [] then []
    else
      var prefix := xs[..|xs| - 1];
      var last := xs[|xs| - 1];
      assert xs == prefix + [last];
      if last in prefix then Dedup(prefix) else Dedup(prefix) + [last]
  }

  /** A token: at least TOKENIZE_MIN_LENGTH characters, all lower-case word characters. */
  predicate IsToken(t: string) {
    |t| >= TokenizeMinLength && forall i | 0 <= i < |t| :: IsLowerWordChar(t[i])
  }

  /** `tokenize(text)`: duplicate-free tokens of at least three characters over [a-z0-9_]. */
  function Tokenize(text: string): (r: seq<string>)
    ensures forall i | 0 <= i < |r| :: IsToken(r[i])
    ensures NoDuplicates(r)
  {
    KeptFieldsAreTokens(text);
    Dedup(KeepLong(Split(Normalize(text), ' ')))
  }

  // ---------------------------------------------------------------------------
  // Character-level facts

  /** Every character is a lower-case word character or a space. */
  predicate LowerOrSpace(s: string) {
    forall i | 0 <= i < |s| :: IsLowerWordChar(s[i]) || s[i] == ' '
  }

  /** Every character is a lower-case word character. */
  predicate AllLowerWord(s: string) {
    forall i | 0 <= i < |s| :: IsLowerWordChar(s[i])
  }

  /** Every character is a lower-case word character or whitespace. */
  predicate LowerOrWhitespace(s: string) {
    forall i | 0 <= i < |s| :: IsLowerWordChar(s[i]) || IsSpace(s[i])
  }

  lemma ReplacedChars(text: string)
    ensures LowerOrWhitespace(ReplaceNonWord(Lower(text)))
  {
    var l := Lower(text);
    var b := ReplaceNonWord(l);
    forall i | 0 <= i < |b|
      ensures IsLowerWordChar(b[i]) || IsSpace(b[i])
    {
      assert l[i] == LowerChar(text[i]);
    }
  }

  lemma {:induction false} CollapseChars(s: string)
    requires LowerOrWhitespace(s)
    ensures LowerOrSpace(CollapseSpaces(s))
  {
    if s != [] {
      CollapseChars(s[1..]);
    }
  }

  /** Every character of the normalized text is a lower-case word character or a space. */
  lemma NormalizeChars(text: string)
    ensures LowerOrSpace(Normalize(text))
  {
    var b := ReplaceNonWord(Lower(text));
    ReplacedChars(text);
    var c := CollapseSpaces(b);
    CollapseChars(b);
    var n := Trim(c);
    var k := LeadingSpaces(c);
    assert n == c[k..k + |n|];
    forall i | 0 <= i < |n|
      ensures IsLowerWordChar(n[i]) || n[i] == ' '
    {
      assert n[i] == c[k + i];
    }
  }

  /** Splitting a text of word characters and spaces on spaces gives fields of word characters. */
  lemma {:induction false} SplitWords(s: string)
    requires LowerOrSpace(s)
    ensures forall i | 0 <= i < |Split(s, ' ')| :: AllLowerWord(Split(s, ' ')[i])
  {
    if s != [] {
      SplitWords(s[1..]);
    }
  }

  /** Every long field of the normalized text is a token. */
  lemma KeptFieldsAreTokens(text: string)
    ensures forall t | t in KeepLong(Split(Normalize(text), ' ')) :: IsToken(t)
  {
    var fields := Split(Normalize(text), ' ');
    NormalizeChars(text);
    SplitWords(Normalize(text));
    KeepLongMembers(fields);
    forall t | t in KeepLong(fields)
      ensures IsToken(t)
    {
      var k :| 0 <= k < |fields| && fields[k] == t;
      assert AllLowerWord(fields[k]);
    }
  }

  // ---------------------------------------------------------------------------
  // First-occurrence order of the duplicate filter

  /** The first occurrence is the only index holding `x` with no `x` before it. */
  lemma FirstIndexUnique<T>(xs: seq<T>, x: T, k: nat)
    requires k < |xs| && xs[k] == x && x !in xs[..k]
    ensures FirstIndex(xs, x) == k
  {
    var f := FirstIndex(xs, x);
    assert forall i :: 0 <= i < k ==> xs[..k][i] == xs[i];
    assert forall i :: 0 <= i < f ==> xs[..f][i] == xs[i];
  }

  /** An element of a prefix has its first occurrence inside that prefix. */
  lemma FirstIndexPrefix<T>(xs: seq<T>, n: nat, x: T)
    requires n <= |xs| && x in xs[..n]
    ensures FirstIndex(xs, x) == FirstIndex(xs[..n], x)
  {
    var k := FirstIndex(xs[..n], x);
    assert xs[..n][..k] == xs[..k];
    FirstIndexUnique(xs, x, k);
  }

  /** `Dedup` lists the distinct elements in the order of their first occurrences. */
  lemma {:induction false} DedupKeepsFirstOccurrenceOrder(xs: seq<string>)
    ensures forall i, j | 0 <= i < j < |Dedup(xs)| :: FirstIndex(xs, Dedup(xs)[i]) < FirstIndex(xs, Dedup(xs)[j])
  {
    if xs != [] {
      var n := |xs| - 1;
      var p := xs[..n];
      var last := xs[n];
      var d := Dedup(p);
      DedupKeepsFirstOccurrenceOrder(p);
      forall y | y in d
        ensures FirstIndex(xs, y) == FirstIndex(p, y) < n
      {
        FirstIndexPrefix(xs, n, y);
      }
      if last !in p {
        assert xs[..n] == p;
        FirstIndexUnique(xs, last, n);
        assert Dedup(xs) == d + [last];
      }
    }
  }

  // ---------------------------------------------------------------------------
  // Collapsing and trimming spaces does not change the long fields

  /** Every whitespace character written as a plain space. */
  function Blank(s: string): (r: string)
    ensures |r| == |s|
  {
    seq(|s|, i requires 0 <= i < |s| => if IsSpace(s[i]) then ' ' else s[i])
  }

  /** Every character outside `\w` written as a space and every word character lower-cased. */
  function Canon(text: string): (r: string)
    ensures |r| == |text|
  {
    seq(|text|, i requires 0 <= i < |text| => if IsWordChar(text[i]) then LowerChar(text[i]) else ' ')
  }

  /** The kept fields are long fields of the input. */
  lemma {:induction false} KeepLongMembers(fields: seq<string>)
    ensures forall t | t in KeepLong(fields) :: |t| >= TokenizeMinLength && t in fields
  {
    if fields != [] {
      KeepLongMembers(fields[1..]);
    }
  }

  lemma KeepLongCons(f: string, xs: seq<string>)
    ensures KeepLong([f] + xs) == (if |f| >= TokenizeMinLength then [f] else []) + KeepLong(xs)
  {
    assert ([f] + xs)[0] == f;
    assert ([f] + xs)[1..] == xs;
  }

  lemma {:induction false} KeepLongAppend(xs: seq<string>, ys: seq<string>)
    ensures KeepLong(xs + ys) == KeepLong(xs) + KeepLong(ys)
  {
    if xs == [] {
      assert xs + ys == ys;
    } else {
      KeepLongAppend(xs[1..], ys);
      assert xs + ys == [xs[0]] + (xs[1..] + ys);
      KeepLongCons(xs[0], xs[1..] + ys);
      KeepLongCons(xs[0], xs[1..]);
      assert xs == [xs[0]] + xs[1..];
    }
  }

  /** Two field lists with the same first field and the same long fields agree on the rest. */
  lemma KeepLongTail(f: string, xs: seq<string>, ys: seq<string>)
    requires KeepLong([f] + xs) == KeepLong([f] + ys)
    ensures KeepLong(xs) == KeepLong(ys)
  {
    var pre: seq<string> := if |f| >= TokenizeMinLength then [f] else [];
    KeepLongCons(f, xs);
    KeepLongCons(f, ys);
    assert KeepLong(xs) == (pre + KeepLong(xs))[|pre|..];
    assert KeepLong(ys) == (pre + KeepLong(ys))[|pre|..];
  }

  lemma BlankCons(s: string)
    requires |s| >= 1
    ensures Blank(s) == [if IsSpace(s[0]) then ' ' else s[0]] + Blank(s[1..])
  {
  }

  /**
   * `CollapseSpaces` keeps the long fields (and the first field) of splitting
   * on spaces once every whitespace character is a plain space.
   */
  lemma {:induction false} CollapseKeepsFields(s: string)
    ensures Split(CollapseSpaces(s), ' ')[0] == Split(Blank(s), ' ')[0]
    ensures KeepLong(Split(CollapseSpaces(s), ' ')) == KeepLong(Split(Blank(s), ' '))
  {
    if s != [] {
      var t := s[1..];
      CollapseKeepsFields(t);
      var xs := Split(CollapseSpaces(t), ' ');
      var ys := Split(Blank(t), ' ');
      BlankCons(s);
      if !IsSpace(s[0]) {
        assert CollapseSpaces(s) == [s[0]] + CollapseSpaces(t);
        SplitCons(s[0], CollapseSpaces(t), ' ');
        SplitCons(s[0], Blank(t), ' ');
        assert xs == [xs[0]] + xs[1..];
        assert ys == [ys[0]] + ys[1..];
        KeepLongTail(xs[0], xs[1..], ys[1..]);
        KeepLongCons([s[0]] + xs[0], xs[1..]);
        KeepLongCons([s[0]] + ys[0], ys[1..]);
      } else if |s| > 1 && IsSpace(s[1]) {
        assert CollapseSpaces(s) == CollapseSpaces(t);
        BlankCons(t);
        SplitCons(' ', Blank(t[1..]), ' ');
        SplitCons(' ', Blank(t), ' ');
        KeepLongCons([], ys);
      } else {
        assert CollapseSpaces(s) == [' '] + CollapseSpaces(t);
        SplitCons(' ', CollapseSpaces(t), ' ');
        SplitCons(' ', Blank(t), ' ');
        KeepLongCons([], xs);
        KeepLongCons([], ys);
      }
    }
  }

  predicate AllBlank(s: string) {
    forall i | 0 <= i < |s| :: s[i] == ' '
  }

  /** A leading space only adds an empty field. */
  lemma LeadingBlankKeepsFields(x: string)
    ensures KeepLong(Split([' '] + x, ' ')) == KeepLong(Split(x, ' '))
  {
    SplitCons(' ', x, ' ');
    KeepLongCons([], Split(x, ' '));
  }

  /** Leading spaces only add empty fields. */
  lemma {:induction false} BlankPrefixKeepsFields(p: string, m: string)
    requires AllBlank(p)
    ensures KeepLong(Split(p + m, ' ')) == KeepLong(Split(m, ' '))
  {
    if p != [] {
      var x := p[1..] + m;
      BlankPrefixKeepsFields(p[1..], m);
      assert p[0] == ' ';
      assert p + m == [' '] + x;
      LeadingBlankKeepsFields(x);
    } else {
      assert p + m == m;
    }
  }

  /** Trailing spaces only add empty fields. */
  lemma {:induction false} BlankSuffixKeepsFields(m: string, q: string)
    requires AllBlank(q)
    ensures KeepLong(Split(m + q, ' ')) == KeepLong(Split(m, ' '))
  {
    if q != [] {
      var q' := q[..|q| - 1];
      BlankSuffixKeepsFields(m, q');
      assert m + q == (m + q') + [' '] + [];
      SplitAppend(m + q', ' ', []);
      KeepLongAppend(Split(m + q', ' '), [[]]);
      KeepLongCons([], []);
      calc {
        KeepLong(Split(m + q, ' '));
        KeepLong(Split((m + q') + [' '] + [], ' '));
        KeepLong(Split(m + q', ' ') + [[]]);
        KeepLong(Split(m + q', ' '));
      }
    } else {
      assert m + q == m;
    }
  }

  /** Trimming a text of word characters and spaces keeps its long fields. */
  lemma TrimKeepsFields(x: string)
    requires LowerOrSpace(x)
    ensures KeepLong(Split(Trim(x), ' ')) == KeepLong(Split(x, ' '))
  {
    var k := LeadingSpaces(x);
    var m := Trim(x);
    var e := k + |m|;
    assert x == x[..k] + m + x[e..];
    assert AllBlank(x[..k]) by {
      forall i | 0 <= i < k ensures x[..k][i] == ' ' {
        assert IsSpace(x[i]);
      }
    }
    assert AllBlank(x[e..]) by {
      forall i | 0 <= i < |x| - e ensures x[e..][i] == ' ' {
        assert IsSpace(x[e + i]);
      }
    }
    BlankPrefixKeepsFields(x[..k], m + x[e..]);
    assert x[..k] + m + x[e..] == x[..k] + (m + x[e..]);
    BlankSuffixKeepsFields(m, x[e..]);
  }

  lemma BlankOfReplaced(text: string)
    ensures Blank(ReplaceNonWord(Lower(text))) == Canon(text)
  {
    var l := Lower(text);
    var b := ReplaceNonWord(l);
    forall i | 0 <= i < |text|
      ensures Blank(b)[i] == Canon(text)[i]
    {
      assert l[i] == LowerChar(text[i]);
    }
  }

  /**
   * Reference form of the tokenizer: the collapse and trim steps do not
   * matter, the tokens are the distinct long space-separated fields of the
   * canonical text.
   */
  lemma TokenizeCanonical(text: string)
    ensures Tokenize(text) == Dedup(KeepLong(Split(Canon(text), ' ')))
  {
    var b := ReplaceNonWord(Lower(text));
    var c := CollapseSpaces(b);
    ReplacedChars(text);
    CollapseChars(b);
    TrimKeepsFields(c);
    CollapseKeepsFields(b);
    BlankOfReplaced(text);
  }

  // ---------------------------------------------------------------------------
  // Consequences: what the tokens do not depend on

  /** Texts with the same canonical form have the same tokens. */
  lemma SameCanonSameTokens(a: string, b: string)
    requires Canon(a) == Canon(b)
    ensures Tokenize(a) == Tokenize(b)
  {
    TokenizeCanonical(a);
    TokenizeCanonical(b);
  }

  /** Upper-case letters tokenize like their lower-case forms. */
  lemma TokenizeIgnoresCase(text: string)
    ensures Tokenize(Lower(text)) == Tokenize(text)
  {
    var l := Lower(text);
    forall i | 0 <= i < |text|
      ensures Canon(l)[i] == Canon(text)[i]
    {
      assert l[i] == LowerChar(text[i]);
    }
    SameCanonSameTokens(l, text);
  }

  /** A punctuation character tokenizes like a space: it only separates tokens. */
  lemma PunctuationSeparates(text: string, i: nat)
    requires i < |text| && !IsWordChar(text[i])
    ensures Tokenize(text[i := ' ']) == Tokenize(text)
  {
    var t := text[i := ' '];
    forall j | 0 <= j < |text|
      ensures Canon(t)[j] == Canon(text)[j]
    {
    }
    SameCanonSameTokens(t, text);
  }

  /** Text without any word character has no tokens (the untokenizable case). */
  lemma NoWordCharsNoTokens(text: string)
    requires forall i | 0 <= i < |text| :: !IsWordChar(text[i])
    ensures Tokenize(text) == []
  {
    var c := Canon(text);
    assert AllBlank(c);
    BlankPrefixKeepsFields(c, []);
    assert c + [] == c;
    TokenizeCanonical(text);
  }

  /** Trailing punctuation (such as "???") does not change the tokens. */
  lemma TrailingPunctuationIgnored(text: string, p: string)
    requires forall i | 0 <= i < |p| :: !IsWordChar(p[i])
    ensures Tokenize(text + p) == Tokenize(text)
  {
    var ct := Canon(text);
    var cp := Canon(p);
    assert Canon(text + p) == ct + cp;
    assert AllBlank(cp);
    BlankSuffixKeepsFields(ct, cp);
    TokenizeCanonical(text + p);
    TokenizeCanonical(text);
  }
}
